=== FILE: README.md ===
# soragl engine core in Dafny

A model of the core of the soragl game engine: the object-keeping parts of the
engine, written here as Dafny classes, functions and lemmas.

- **Entities and components.** An `Entity` has an id from a class-wide
  counter, a dict of components, and a current and previous position and
  chunk. A `Component` is numbered the first time it is registered.
- **The ECS registry (`ECSHandler`).** It files each component under its class
  and uuid, and looks components up and removes them again.
- **The world.** A `World2D` keeps layers keyed by z-level. A `Layer` keeps
  chunks and a `Chunk` keeps entities. Every removal is only queued, and the
  queue is drained after the update pass. As written, draining calls the
  matching `add_*` method, so queued objects are added again rather than
  deleted. The entity-migration task recomputes each entity's chunk from its
  position. An entity that changed chunk is queued for removal from its old
  chunk and stored in its new one, then records the new chunk.
- **Chunk coordinates.** A position maps to a chunk by Python floor division.
  `Camera2D` lists the square of chunks within its render distance.
- **Sprite sheets.** An image is cut into named sprites along a regular grid,
  or from a list of frames. The tile counts are then written back into the
  sheet's config.
- **Vertex expansion.** `generate_vertex_data` turns an index table into rows,
  and the cube's constant tables are checked.
- **Textures.** The texture cache keyed by path, and the extension check a
  texture performs.
- **The rendering manifold.** It holds a table of texture slots.

Python's own semantics are written out where the engine depends on them:
- negative list indices count from the end;
- `//` rounds toward negative infinity;
- `dict` keeps insertion order;
- every exception the modelled code can raise is a `Result`/`Outcome` value:
  `KeyError`, `IndexError`, `AttributeError`, `NameError` and
  `ZeroDivisionError`.

`id(obj)` keys are modelled as object identity.

The model follows the code, not a description of what the code means to do,
in these places:
- Layers are updated in the dict's insertion order, not in ascending z.
- `World2D.add_entity` calls `__post_init__`, which a plain `Entity` does not
  define.
- A chunk stored by `add_chunk` under `id(chunk)` can never be found by
  `get_chunk`, which looks it up by the string `"x||y"`.
- `ECSHandler.generate_aspect_uuid` always raises, because the counter it
  increments is never defined.
- The JSON paths of the sprite-sheet code raise `NameError`, because the JSON
  reader's module is never imported.

Each of these is stated as a contract or a lemma.

The modules are:

| module | file | models |
|---|---|---|
| Prelude | prelude.dfy | exceptions, Python indexing, floor division |
| Dicts | dicts.dfy | insertion-ordered dict |
| Text | text.dfy | `str(int)`, splitting on a separator, `endswith` |
| Counters | counter.dfy | the class-level id counters |
| Entities | entity.dfy | `Entity`, `Component` |
| Ecs | ecs.dfy | `ECSHandler` |
| Coords | coords.dfy | position to chunk |
| World | world.dfy | `World2D`, `Layer`, `Chunk` |
| Camera | camera.dfy | `Camera2D` |
| Sprites | spritesheet.dfy | `SpriteSheet` and the config helpers |
| Vertices | vertices.dfy | `generate_vertex_data`, `Cube` |
| Textures | texture.dfy | `Texture` and its cache |
| Buffers | buffer.dfy | `RenderingManifold` |

## Model

| member | source | states |
|---|---|---|
| Prelude.PyIndex | engine/graphics/spritesheet.py:170-172 | `s[i]` succeeds exactly for -len ≤ i < len and reads position i, or len + i for a negative i; otherwise IndexError |
| Prelude.FloorDiv | engine/system/world.py:73-76 | the quotient q brackets a between b·q and b·q + b, so it rounds toward negative infinity |
| Prelude.FloorDivUnique | engine/system/world.py:73-76 | any q that brackets a that way is the floor quotient |
| Prelude.PyFloorDiv | engine/graphics/spritesheet.py:159-164 | `a // b` raises ZeroDivisionError exactly when b is 0 |
| Text.IntRoundTrip | engine/system/world.py:207-209 | reading back the decimal text of an int gives the int |
| Text.IntToStringInjective | engine/system/world.py:207-209 | distinct ints have distinct decimal texts |
| Counters.Counter.constructor | engine/physics/entity.py:9 | the counter starts at 0 and has handed out nothing |
| Counters.Counter.Next | engine/physics/entity.py:11-14 | the new id is the old counter plus one and was never handed out before; the set of handed-out ids grows by that id alone |
| Entities.Component.constructor | engine/system/ecs.py:78-84 | a new component has uuid 0 and no registry or entity |
| Entities.Component.PostInit | engine/system/ecs.py:86-88 | a component with uuid 0 gets a fresh number from the counter; a numbered one keeps its uuid and the counter is left alone |
| Entities.InstancesOf | engine/physics/entity.py:45-50 | the result holds exactly the components of the list that are instances of the class |
| Entities.InstancesOfAppend | engine/physics/entity.py:45-50 | filtering a concatenation filters each part, keeping the order |
| Entities.InstancesOfCounts | engine/physics/entity.py:45-50 | each matching component occurs as often as in the input; non-matching ones do not occur |
| Entities.Entity.constructor | engine/physics/entity.py:20-33 | fresh id from the counter, no components, positions and chunks at the origin |
| Entities.Entity.AddComponent | engine/physics/entity.py:39-40 | the dict is the old dict with `id(component)` set |
| Entities.Entity.RemoveComponent | engine/physics/entity.py:42-43 | KeyError exactly when `id(component)` is absent, and then nothing changes; otherwise only that key is removed |
| Entities.Entity.IterateComponents | engine/physics/entity.py:52-55 | the generator yields exactly the list `get_components` returns |
| Entities.AddThenRemoveRestores | engine/physics/entity.py:39-43 | adding a new component and removing it gives back the original dict |
| Entities.GetComponentsExactly | engine/physics/entity.py:45-50 | a component is returned iff it is stored and an instance of the class; no match gives [] |
| Ecs.ECSHandler.constructor | engine/system/ecs.py:12-17 | the registry starts empty |
| Ecs.ECSHandler.GenerateAspectUuid | engine/system/ecs.py:22-25 | always raises AttributeError, because `ASPECT_UUID_COUNTER` is never defined |
| Ecs.ECSHandler.GetComponent | engine/system/ecs.py:65-66 | succeeds iff both the class and the uuid are registered, returning that component; KeyError otherwise |
| Ecs.ECSHandler.GetComponents | engine/system/ecs.py:68-69 | KeyError iff the class has no bucket; otherwise one value per uuid, each stored and each stored one present |
| Ecs.ECSHandler.IterateComponents | engine/system/ecs.py:61-63 | the generator yields what `get_components` returns and fails in the same cases |
| Ecs.ECSHandler.AddComponent | engine/system/ecs.py:36-48 | the entity stores the component under its uuid from before numbering; the back-links are set; the component is numbered once, the counter issuing that uuid alone; it is filed under its class and new uuid |
| Ecs.ECSHandler.RemoveComponent | engine/system/ecs.py:50-59 | the error cases: no bucket does nothing; no entity raises AttributeError; a missing `id` or uuid raises KeyError. On success the component leaves both the entity and the bucket. Of the entity only the component dict may change |
| Ecs.FileUnder | engine/system/ecs.py:43-48 | the class's bucket is created if missing; one entry is set in it; every other class is unchanged |
| Ecs.FiledIsFound | engine/system/ecs.py:43-48 | after filing, `get_component` finds the component and every other entry answers as before |
| Ecs.FileUnderAgain | engine/system/ecs.py:43-48 | filing the same component again changes nothing, not even the order |
| Ecs.FileUnderAppends | engine/system/ecs.py:43-48 | a new uuid goes to the end of its bucket's order |
| Ecs.RegistryRemoveAfterAddFails | engine/system/ecs.py:36-59 | removing a just-added component raises KeyError, because the entity stored it under its uuid but pops `id(component)`; the component stays registered |
| Coords.ChunkOf | engine/system/world.py:73-76 | the chunk's pixel span on each axis contains the position |
| Coords.ChunkOfUnique | engine/system/world.py:73-76 | exactly one chunk's span contains a position |
| Coords.ChunkOfRoundsDown | engine/system/world.py:73-76 | pixel (-1, -1) lies in chunk (-1, -1): rounding is toward negative infinity |
| Coords.ChunkOfShift | engine/system/world.py:73-76 | moving by whole chunk sizes moves by that many chunks |
| Camera.Camera2D.constructor | engine/graphics/camera.py:28-31 | the camera starts at the origin in chunk (0, 0) |
| Camera.Camera2D.GenerateVisibleChunks | engine/graphics/camera.py:37-45 | the camera's chunk is the floor-divided position, and the chunks come out in the nested loops' order |
| Camera.ColumnLength | engine/graphics/camera.py:44-45 | the inner loop yields r − y chunks |
| Camera.ColumnsLength | engine/graphics/camera.py:43-45 | each remaining column holds 2r chunks |
| Camera.VisibleCount | engine/graphics/camera.py:43-45 | (2r)² chunks for r > 0, none for r ≤ 0 |
| Camera.ColumnMembers | engine/graphics/camera.py:44-45 | a column holds exactly the chunks of its x between its y bounds |
| Camera.ColumnsMembers | engine/graphics/camera.py:43-45 | the remaining columns hold exactly the chunks of their rectangle |
| Camera.VisibleMembers | engine/graphics/camera.py:43-45 | a chunk is listed iff it lies in the half-open square [c − r, c + r)² |
| Camera.OwnChunkVisible | engine/graphics/camera.py:43-45 | the camera's own chunk is listed iff r ≥ 1 |
| Camera.ConcatOrdered | engine/graphics/camera.py:43-45 | joining two ordered runs, the first wholly before the second, stays ordered |
| Camera.ColumnOrdered | engine/graphics/camera.py:44-45 | a column is strictly ordered by y |
| Camera.ColumnsOrdered | engine/graphics/camera.py:43-45 | the columns are strictly ordered, x first |
| Camera.VisibleOrdered | engine/graphics/camera.py:43-45 | the enumeration is x-major and has no duplicates |
| World.ChunkIdRoundTrip | engine/system/world.py:207-209 | the id (x and y joined by the double-bar separator) can be read back to (x, y) |
| World.ChunkIdInjective | engine/system/world.py:207-209 | distinct positions have distinct ids |
| World.Chunk.constructor | engine/system/world.py:215-231 | the id is `get_id(position)`; there is no layer, and no entities stored or queued |
| World.Chunk.AddEntity | engine/system/world.py:252-253 | the entity is stored under itself and can be looked up |
| World.Chunk.RemoveEntity | engine/system/world.py:255-256 | the entity is only appended to the queue |
| World.Chunk.Update | engine/system/world.py:240-246 | every queued entity is re-added in order, and the queue is emptied |
| World.FlushReAddsEntities | engine/system/world.py:240-246 | after the drain every queued ("removed") entity is present, and all others are unchanged |
| World.Layer.constructor | engine/system/world.py:145-163 | the layer starts with the given z-level and no chunks |
| World.Layer.AddChunk | engine/system/world.py:188-191 | the chunk is stored under its identity and linked back to the layer |
| World.Layer.RemoveChunk | engine/system/world.py:193-194 | the chunk is only appended to the queue |
| World.Layer.GetChunk | engine/system/world.py:196-197 | whatever is found is a stored chunk |
| World.GetChunkNeverFindsAdded | engine/system/world.py:188-197 | when every chunk came through `add_chunk`, `get_chunk` finds nothing for any position |
| World.Layer.Update | engine/system/world.py:172-182 | every stored chunk is drained; then queued chunks are re-added in order and the queue emptied. Only the layer's two fields, the stored chunks' entity fields and the queued chunks' `layer` may change |
| World.Layer.UpdateChunks | engine/system/world.py:176-177 | every stored chunk's entity queue is drained |
| World.UpdateEachChunk | engine/system/world.py:176-177 | each listed chunk is drained once; a repeat visit changes nothing |
| World.Layer.FlushChunks | engine/system/world.py:180-182 | queued chunks are re-added in order and linked back, and the queue is emptied |
| World.Layer.FlushChunkAt | engine/system/world.py:180-181 | one round of the drain adds the i-th queued chunk |
| World.FlushReAddsChunks | engine/system/world.py:180-182 | after the drain every queued chunk is present under its identity, and all other keys are unchanged |
| World.FirstWithoutHook | engine/system/world.py:126-130 | the index of the first queued entity without `__post_init__`, or the queue length |
| World.Drained | engine/system/world.py:66-68 | the drain gets through the whole queue, or up to and including the first entity that raises |
| World.UpdateOne | engine/system/world.py:56-57 | one layer's `update` drains its chunk queue into its chunk dict, links every queued chunk to the layer, and drains each stored chunk's entity queue into that chunk's entity dict |
| World.UpdateEach | engine/system/world.py:56-57 | every listed layer's chunk queue is drained, and every chunk stored in any of them is drained exactly as if it had been updated once, even when two layers share the chunk; a queued chunk ends linked to the last listed layer that queued it; only stored chunks' entity fields and queued chunks' `layer` may change |
| World.UpdateLoop | engine/system/world.py:56-57 | the layer loop reaches the state of `UpdateEach` against the snapshots taken before it |
| World.UpdateAt | engine/system/world.py:56-57 | one round of the layer loop keeps the loop state: earlier layers drained, later ones untouched, each chunk untouched or drained once, each chunk queued so far linked to the last layer that queued it |
| World.World2D.constructor | engine/system/world.py:17-36 | no layers and no entities, with both queues empty |
| World.World2D.AddLayer | engine/system/world.py:91-92 | the layer is stored under its z-level, replacing any layer there; other z-levels are unchanged |
| World.World2D.RemoveLayer | engine/system/world.py:94-95 | the layer is only appended to the queue |
| World.World2D.GetLayer | engine/system/world.py:97-98 | None iff no layer has that z-level; otherwise the layer has that z-level |
| World.World2D.AddChunk | engine/system/world.py:104-108 | a missing layer is created fresh and appended; the chunk is added to that layer; other layers are unchanged. Of an existing layer only the chunk dict may change |
| World.World2D.RemoveChunk | engine/system/world.py:110-114 | queues the chunk on that layer, if the layer exists; only that layer's chunk queue may change |
| World.World2D.GetChunk | engine/system/world.py:116-120 | None without that layer; otherwise a chunk stored in it, if anything |
| World.World2D.AddEntity | engine/system/world.py:126-130 | the entity is stored and linked; AttributeError iff its class has no `__post_init__` |
| World.World2D.RemoveEntity | engine/system/world.py:132-133 | the entity is only appended to the queue |
| World.World2D.GetEntity | engine/system/world.py:135-136 | found iff stored, and then it is that entity |
| World.World2D.Update | engine/system/world.py:50-68 | layers update in dict order, so every layer's chunk queue and every stored chunk's entity queue is drained, and a queued chunk ends linked to the last layer in dict order that queued it; then the layer queue and the entity queue are drained. The entity drain stops at the first entity that raises and then leaves the queue uncleared. A chunk that is only queued keeps its entity dict and queue, a stored chunk that is not queued keeps its link, and entities after the first raiser keep their `world` |
| World.World2D.FlushQueues | engine/system/world.py:61-68 | the layer queue is drained by z-level, then the entity queue up to the first entity that raises; no layer or chunk changes, and no entity after the first raiser |
| World.World2D.UpdateLayers | engine/system/world.py:56-57 | every layer's chunk queue is drained, and so is every stored chunk's entity queue; a queued chunk ends linked to the last layer in dict order that queued it; only stored chunks' entity fields and queued chunks' `layer` may change |
| World.World2D.FlushLayers | engine/system/world.py:61-63 | queued layers are re-added by z-level, and the queue is emptied |
| World.World2D.FlushEntities | engine/system/world.py:66-68 | the queued entities up to the first that raises are re-added; the queue is cleared only if none raised; later entities keep their `world` |
| World.World2D.AddEach | engine/system/world.py:66-67 | the loop adds entities in order and stops at the first AttributeError; entities after it keep their `world` |
| World.World2D.AddQueued | engine/system/world.py:66-67 | one round of the loop adds the i-th entity |
| World.World2D.MigrateEntity | engine/system/world.py:72-85 | the chunk is recomputed. An entity that stays passes, keeps its recorded chunk and changes no chunk. On success a mover is queued on its old chunk and stored in its new one, no other chunk changes, and it records the new chunk. On failure (AttributeError) no chunk's entity dict changes and the recorded chunk stays; when no chunk can be found, nothing changes |
| World.World2D.Relocate | engine/system/world.py:79-85 | the mover branch: the same effects on the two chunks on success. On failure it raises AttributeError, no chunk's entity dict changes and the recorded chunk stays; when no chunk can be found, no chunk changes at all |
| World.World2D.EntityChunkChangeTask | engine/system/world.py:70-85 | on success every entity's current and recorded chunk equal the chunk its position lies in; non-movers keep their recorded chunk; if no entity moves the task passes and no chunk changes; if chunks cannot be found, any mover raises AttributeError and no chunk changes |
| World.World2D.MigrateEach | engine/system/world.py:71-85 | the same, over any list of distinct entities |
| World.World2D.MigrateLoop | engine/system/world.py:71-85 | the loop stops at the first entity that raises, and that entity is a mover; the entities before it are settled; the chunks are unchanged while no one has moved |
| World.World2D.MigrateAt | engine/system/world.py:72-85 | one round of the loop keeps the loop invariant |
| Sprites.CreateConfig | engine/graphics/spritesheet.py:203-220 | the config has exactly the seven keys |
| Sprites.Flatten | engine/graphics/spritesheet.py:223-233 | succeeds iff all seven keys are present, returning their values in order; KeyError otherwise |
| Sprites.FlattenCreate | engine/graphics/spritesheet.py:203-233 | flattening a created config gives back the arguments |
| Sprites.FlattenCreateInjective | engine/graphics/spritesheet.py:203-233 | created configs flatten alike only when created from the same arguments |
| Sprites.SpriteNameSplits | engine/graphics/spritesheet.py:166-168 | splitting a sprite name on the double-bar separator gives back the sheet's path, provided the path holds no separator and does not end in a bar |
| Sprites.SpriteNameSplitsEarly | engine/graphics/spritesheet.py:166-168 | for the path `a` followed by one bar the split gives `a`, so the second condition is needed |
| Sprites.FromEntries | engine/graphics/spritesheet.py:140-156 | one sprite per frame entry, in order, with its name, subsurface and rect |
| Sprites.FromEntriesAppend | engine/graphics/spritesheet.py:142-156 | one more entry appends one more sprite |
| Sprites.RowLength | engine/graphics/spritesheet.py:126-135 | the inner loop cuts as many slices as there are left edges up to the maximum |
| Sprites.RowAt | engine/graphics/spritesheet.py:126-135 | the j-th slice of a row is j steps to the right of its first |
| Sprites.GridLength | engine/graphics/spritesheet.py:125-139 | the rows from `top` on hold rows × columns slices |
| Sprites.GridAt | engine/graphics/spritesheet.py:125-139 | slice i·cols + j of the rows from `top` is at row i, column j |
| Sprites.GridCount | engine/graphics/spritesheet.py:110-139 | the grid walk cuts Rows × Cols slices |
| Sprites.GridOrder | engine/graphics/spritesheet.py:110-139 | slices come in row-major order: slice i·Cols + j is at (padx + j·(w + spacingx), i·(h + spacingy)) |
| Sprites.RowInside | engine/graphics/spritesheet.py:126-135 | the slices of a row lie between padx and the width less padding |
| Sprites.GridInside | engine/graphics/spritesheet.py:125-139 | the slices of the rows from `top` lie inside the padded image |
| Sprites.GridBounds | engine/graphics/spritesheet.py:110-139 | every slice lies inside the image less its padding |
| Sprites.SelectBranch | engine/graphics/spritesheet.py:91-140 | when each branch is taken, as an iff; KeyError exactly when the framedata flag is read and is missing |
| Sprites.GridOf | engine/graphics/spritesheet.py:113-121 | the grid branch's reads succeed iff the six keys are present; KeyError otherwise |
| Sprites.WithTiles | engine/graphics/spritesheet.py:158-164 | writes the tile counts `(size − spacing) // (tile + spacing)`. It fails with KeyError or ZeroDivisionError exactly when a key is missing or a divisor is 0, and a late failure leaves the horizontal count written. No other key changes |
| Sprites.TilesUndercount | engine/graphics/spritesheet.py:158-164 | the tile count can disagree with the grid: 2 slices per row but 1 horizontal tile |
| Sprites.TilesMatchGrid | engine/graphics/spritesheet.py:158-164 | with no padding or spacing, the tile counts equal the grid's columns and rows |
| Sprites.ReloadSame | engine/graphics/spritesheet.py:86-164 | loading again after a load builds the same sprite list |
| Sprites.SpriteSheet.constructor | engine/graphics/spritesheet.py:52-63 | the fields before loading: path, copied config, framedata, no JSON, no frames, no sprites |
| Sprites.SpriteSheet.LoadSprites | engine/graphics/spritesheet.py:86-164 | the list is cleared and filled from the selected branch, then the tile counts are written; an error in the branch leaves the list empty and the config as it was |
| Sprites.SpriteSheet.AppendEntries | engine/graphics/spritesheet.py:142-156 | the loop appends one sprite per entry |
| Sprites.SpriteSheet.WalkGrid | engine/graphics/spritesheet.py:124-139 | the grid walk builds exactly the named grid slices |
| Sprites.SpriteSheet.CutRow | engine/graphics/spritesheet.py:126-135 | the inner loop appends the slices of one row |
| Sprites.SpriteSheet.CutSlice | engine/graphics/spritesheet.py:127-134 | one slice is appended, named after the list's length minus one |
| Sprites.NamedAppend | engine/graphics/spritesheet.py:127-134 | appending a slice appends a sprite named after the previous length minus one |
| Sprites.GridNames | engine/graphics/spritesheet.py:127-134 | grid sprite k is named after k − 1, so the first is numbered -1 |
| Sprites.SpriteSheet.GenSpriteStrId | engine/graphics/spritesheet.py:166-168 | the name is the path, the double-bar separator, then the index in decimal, which reads back as the index |
| Sprites.SpriteSheet.Len | engine/graphics/spritesheet.py:185-187 | the number of sprites, which is exactly the bound of the Python indices `__getitem__` accepts |
| Sprites.SpriteSheet.GetSpriteStrId | engine/graphics/spritesheet.py:170-172 | the name of the sprite at a Python index; IndexError outside the range |
| Sprites.SpriteSheet.GetItem | engine/graphics/spritesheet.py:177-179 | the image of the sprite at a Python index; IndexError outside the range |
| Sprites.NewSpriteSheet | engine/graphics/spritesheet.py:41-66 | a `.json` path raises NameError; otherwise the sheet is built iff loading succeeds, with the loaded sprites and config |
| Sprites.LoadSpritesheet | engine/graphics/spritesheet.py:246-266 | a `.json` path raises NameError; a non-empty framedata sets the flag in the caller's dict, and the sprites are then the frame entries |
| Vertices.ExpandTuple | engine/graphics/constants.py:8-9 | the rows of one tuple: succeeds iff every index is in Python range; row j is the vertex index j names |
| Vertices.Expand | engine/graphics/constants.py:8-9 | succeeds iff every index is in range, with one row per index; IndexError otherwise |
| Vertices.ExpandConcat | engine/graphics/constants.py:8-9 | expanding concatenated tables concatenates the rows, and the first error wins |
| Vertices.TriangleCount | engine/graphics/constants.py:8-9 | triangles give three rows each |
| Vertices.ExpandRow | engine/graphics/constants.py:8-9 | row 3t + j is the vertex named by index j of triangle t |
| Vertices.ExpandRowsAreVertices | engine/graphics/constants.py:8-9 | every row is one of the vertices |
| Vertices.TrianglesChecked | engine/graphics/constants.py:8-9 | a table that passes the checks holds only triangles whose indices are all in range |
| Vertices.VertexTableChecked | engine/graphics/constants.py:33-52 | `VERTEX_INDICES` has 12 triangles, all indexing into `VERTICES` |
| Vertices.TexTableChecked | engine/graphics/constants.py:56-75 | `TEXCOORD_INDICES` has 12 triangles, all indexing into `TEXCOORDS` |
| Vertices.CornersAreUnit | engine/graphics/constants.py:14-31 | every cube corner has coordinates ±1 |
| Vertices.CubeVertRows | engine/graphics/constants.py:81-83 | `get_cube_vert` succeeds with 36 rows, each a corner of [-1, 1]³ |
| Vertices.CubeTexRows | engine/graphics/constants.py:85-87 | `get_cube_tex` succeeds with as many rows as `get_cube_vert`, each a texture corner |
| Textures.ExtensionCheck | engine/graphics/texture.py:50-56 | a path passes iff it is an extension itself or ends in `.png`, `.jpg` or `.jpeg` |
| Textures.ExtensionCaseSensitive | engine/graphics/texture.py:50-56 | `a.PNG` is refused |
| Textures.Context.Stop | engine/context.py:111-114 | stopping sets the flag |
| Textures.Texture.constructor | engine/graphics/texture.py:37-56 | an invalid extension stops the context, and construction carries on |
| Textures.Texture.Clean | engine/graphics/texture.py:75-76 | the texture is released |
| Textures.TextureCache.constructor | engine/graphics/texture.py:13 | the cache starts empty |
| Textures.TextureCache.OnClean | engine/graphics/texture.py:26-29 | every cached texture is released |
| Textures.TextureCache.GetTexture | engine/graphics/texture.py:15-24 | a hit returns the cached texture and changes nothing; a miss builds a fresh texture for that path and adds only that entry |
| Textures.GetTextureTwice | engine/graphics/texture.py:15-24 | asking twice for a path gives the same texture |
| Textures.DirectTextureNotCached | engine/graphics/texture.py:31-33 | a texture built directly is not cached |
| Buffers.InitialSlots | engine/graphics/buffer.py:22 | `tex_count` slots with units 1 to n and no textures; none for a negative count |
| Buffers.UsesOf | engine/graphics/buffer.py:57-60 | at most one use per slot |
| Buffers.UsesAreSlots | engine/graphics/buffer.py:57-60 | every use is a slot holding that texture at that unit |
| Buffers.SlotsAreUsed | engine/graphics/buffer.py:57-60 | every slot holding a texture is used |
| Buffers.EmptySlotsUnused | engine/graphics/buffer.py:57-60 | a table with no textures makes no uses |
| Buffers.UsesOfConcat | engine/graphics/buffer.py:57-60 | the uses of a split table are the uses of each part, in order |
| Buffers.SingleTextureUse | engine/graphics/buffer.py:71-72 | filling only slot k of a fresh table gives exactly one use, at unit k + 1 |
| Buffers.RemovalKeepsUnits | engine/graphics/buffer.py:74-75 | removing a slot does not renumber the others |
| Buffers.TextureUniformVarInjective | engine/graphics/buffer.py:81-82 | distinct indices name distinct uniforms |
| Buffers.RenderingManifold.constructor | engine/graphics/buffer.py:15-33 | the slot table is the initial one |
| Buffers.RenderingManifold.SetTexture | engine/graphics/buffer.py:71-72 | IndexError iff the key is out of Python range; otherwise only that slot's texture changes, and its unit is kept |
| Buffers.RenderingManifold.RemoveTexture | engine/graphics/buffer.py:74-75 | IndexError iff the key is out of range; otherwise that slot is popped |
| Buffers.RenderingManifold.Handle | engine/graphics/buffer.py:52-63 | nothing without a vao; otherwise each texture is used at its slot's unit, in order, and the vao renders |
| Buffers.RenderingManifold.OnClean | engine/graphics/buffer.py:35-46 | nothing without a vao, not even a texture; otherwise every uncached texture is released and the table is emptied |

## Left out

- Image, GL and file work is not modelled. This covers pygame surfaces and
  `subsurface`/`convert_alpha`, resource loading, moderngl textures, the
  VAO/GL buffer classes, and shader uniform writes (`write_uniform`,
  `set_uniform`). A sprite's image is its rect; a sheet's image is its size.
- The JSON readers are not modelled: `_load_json_config` and
  `generate_config_from_json`. Both reach a module that is never imported, so
  the paths into them are modelled as NameError. The JSON frame branch of
  `_load_sprites` is kept, with the frames as data.
- World.World2D.constructor: the camera and the render-chunk cache are not
  modelled. The engine also passes `Camera2D` a `viewbox` argument that its
  constructor does not accept.
- World.World2D.Update: the camera refresh at the start of `update` is not
  modelled.
- World.World2D.EntityChunkChangeTask: the layer is passed explicitly. The
  engine calls `get_chunk` with the position alone, and Python would reject
  that call for the missing argument.
- `World2D.__post_init__`, which registers the migration task with the
  engine's ECS registry, is not modelled. The task objects and the registry
  singleton are not part of this model.
- `World2D` is not modelled as a subclass of `Entity`.
- Camera2D's entity parts (id, components) are not modelled. `BaseCamera` is
  folded into `Camera2D`.
- `Camera3D` is not modelled: it is floating-point matrix work.
- The camera and the migration task read pixel positions as ints; pygame's
  float vectors are not modelled.
- Generators are modelled as the lists they yield. The camera's chunk is
  set when the generator is created, not when it first runs.
- Component `update`, and an aspect registry, are abstract or absent in the
  engine.
- Sprites.SpriteSheet.LoadSprites: requires that the grid walk ends. With a
  non-positive step the engine's loops never finish.
- Framedata entries with fewer than five items are not modelled: each entry
  is a rect and a name.
- A rect that `subsurface` rejects is not modelled: negative padding or sizes, or any rect reaching outside the image. pygame raises for those; the model still returns a sprite for each such rect.
- `SpriteSheet.__hash__`, `__iter__` and `get_config` are not modelled.
- The shared mutable default `DEFAULT_CONFIG` is not modelled: the caller's
  dict (`ConfigDict`) stands in for it.
- The class attribute `Texture.CACHE` is a `TextureCache` object passed
  explicitly.
- `Texture.use` and `__call__` are not modelled. A texture built from a raw
  image (size, byte depth) is only its missing path.
- Physics, collision, the process and sprite components, and the engine
  context are not part of this model, except the `stop` flag.

=== FILE: buffer.dfy ===
/** The rendering manifold's texture-slot table: a list of `[unit, texture]`
    entries, one per texture unit, changed in place. */
module Buffers {
  import opened Prelude
  import opened Text
  import opened Textures

  /** An entry `[unit, texture]` of `_textures`. */
  datatype Slot = Slot(unit: int, tex: Option<Texture>)

  /** A `tex().use(location=unit)` call made by `handle`. */
  datatype Use = Use(unit: int, tex: Texture)

  /** `[[i + 1, None] for i in range(n)]`: units are numbered from 1, and a
      negative count gives no slots. */
  function InitialSlots(n: int): (r: seq<Slot>)
    ensures |r| == if n < 0 then 0 else n
    ensures forall i | 0 <= i < |r| :: r[i] == Slot(i + 1, None)
  {
    if n <= 0 then [] else seq(n, i requires 0 <= i < n => Slot(i + 1, None))
  }

  /** The `use` calls `handle` makes for a table: entries in list order,
      skipping those without a texture, each at its stored unit. */
  function UsesOf(slots: seq<Slot>): (r: seq<Use>)
    ensures |r| <= |slots|
  {
    if slots == [] then []
    else (if slots[0].tex.Some? then [Use(slots[0].unit, slots[0].tex.value)] else []) + UsesOf(slots[1..])
  }

  /** Every use is an entry of the table that holds a texture. */
  lemma {:induction false} UsesAreSlots(slots: seq<Slot>)
    ensures forall u | u in UsesOf(slots) :: Slot(u.unit, Some(u.tex)) in slots
  {
    if slots != [] {
      UsesAreSlots(slots[1..]);
      assert forall s | s in slots[1..] :: s in slots;
    }
  }

  /** Every entry holding a texture gives one use. */
  lemma {:induction false} SlotsAreUsed(slots: seq<Slot>)
    ensures forall s | s in slots && s.tex.Some? :: Use(s.unit, s.tex.value) in UsesOf(slots)
  {
    if slots != [] {
      SlotsAreUsed(slots[1..]);
      assert forall s | s in slots :: s == slots[0] || s in slots[1..];
    }
  }

  /** A fresh table makes no uses at all. */
  lemma {:induction false} EmptySlotsUnused(slots: seq<Slot>)
    requires forall i | 0 <= i < |slots| :: slots[i].tex == None
    ensures UsesOf(slots) == []
  {
    if slots != [] {
      EmptySlotsUnused(slots[1..]);
    }
  }

  /** Uses of a table split at any point are the uses of each part, in order. */
  lemma {:induction false} UsesOfConcat(a: seq<Slot>, b: seq<Slot>)
    ensures UsesOf(a + b) == UsesOf(a) + UsesOf(b)
  {
    if a == [] {
      assert a + b == b;
    } else {
      var head := if a[0].tex.Some? then [Use(a[0].unit, a[0].tex.value)] else [];
      assert (a + b)[0] == a[0] && (a + b)[1..] == a[1..] + b;
      assert UsesOf(a + b) == head + UsesOf(a[1..] + b);
      UsesOfConcat(a[1..], b);
      assert head + (UsesOf(a[1..]) + UsesOf(b)) == (head + UsesOf(a[1..])) + UsesOf(b);
    }
  }

  /** After filling only slot k of a fresh table, `handle` uses exactly that
      texture, at unit k + 1. */
  lemma SingleTextureUse(n: int, k: int, t: Texture)
    requires 0 <= k < n
    ensures UsesOf(InitialSlots(n)[k := Slot(k + 1, Some(t))]) == [Use(k + 1, t)]
  {
    var s := InitialSlots(n)[k := Slot(k + 1, Some(t))];
    assert s == s[..k] + [s[k]] + s[k + 1..];
    UsesOfConcat(s[..k] + [s[k]], s[k + 1..]);
    UsesOfConcat(s[..k], [s[k]]);
    EmptySlotsUnused(s[..k]);
    EmptySlotsUnused(s[k + 1..]);
    assert UsesOf([s[k]]) == [Use(k + 1, t)] + UsesOf([]);
  }

  /** Removing an entry does not renumber the others: after removing slot 0 of
      a fresh table, the slot now first holds unit 2, so a texture set there
      is used at unit 2, not 1. */
  lemma RemovalKeepsUnits(n: int, t: Texture)
    requires n >= 2
    ensures var s := InitialSlots(n)[1..];
            UsesOf(s[0 := Slot(s[0].unit, Some(t))]) == [Use(2, t)]
  {
    var s := InitialSlots(n)[1..];
    var s' := s[0 := Slot(s[0].unit, Some(t))];
    assert s'[1..] == InitialSlots(n)[2..];
    EmptySlotsUnused(s'[1..]);
  }

  /** `get_texture_uniform_var(index)`: `f"texture{index}"`. */
  function TextureUniformVar(index: int): string {
    "texture" + IntToString(index)
  }

  /** Different indices name different uniforms. */
  lemma TextureUniformVarInjective(a: int, b: int)
    requires TextureUniformVar(a) == TextureUniformVar(b)
    ensures a == b
  {
    assert TextureUniformVar(a)[7..] == IntToString(a);
    assert TextureUniformVar(b)[7..] == IntToString(b);
    IntToStringInjective(a, b);
  }

  class RenderingManifold {
    /** Whether a vao was given; the vao itself is not modelled. */
    const hasVao: bool
    /** `_textures` */
    var textures: seq<Slot>
    const texCount: int

    /** `RenderingManifold(vao, tex_count)`. The uniform write made when there
        is a vao is not modelled. */
    constructor (hasVao: bool, texCount: int)
      ensures this.hasVao == hasVao && this.texCount == texCount
      ensures textures == InitialSlots(texCount)
    {
      this.hasVao := hasVao;
      this.texCount := texCount;
      this.textures := InitialSlots(texCount);
    }

    /** `set_texture(key, texture)`: writes the texture into entry key (a
        Python index), keeping its unit; IndexError when key is out of range. */
    method SetTexture(key: int, t: Texture) returns (r: Outcome)
      modifies `textures
      ensures r.Pass? <==> InRange(|old(textures)|, key)
      ensures r.Fail? ==> r.error == IndexError && textures == old(textures)
      ensures r.Pass? ==>
                var k := Normalize(|old(textures)|, key);
                textures == old(textures)[k := Slot(old(textures)[k].unit, Some(t))]
    {
      if !InRange(|textures|, key) {
        return Fail(IndexError);
      }
      var k := Normalize(|textures|, key);
      textures := textures[k := Slot(textures[k].unit, Some(t))];
      r := Pass;
    }

    /** `remove_texture(key)`: pops entry key (a Python index); the later
        entries shift down with their units. IndexError when key is out of
        range. */
    method RemoveTexture(key: int) returns (r: Outcome)
      modifies `textures
      ensures r.Pass? <==> InRange(|old(textures)|, key)
      ensures r.Fail? ==> r.error == IndexError && textures == old(textures)
      ensures r.Pass? ==>
                var k := Normalize(|old(textures)|, key);
                textures == old(textures)[..k] + old(textures)[k + 1..]
    {
      if !InRange(|textures|, key) {
        return Fail(IndexError);
      }
      var k := Normalize(|textures|, key);
      textures := textures[..k] + textures[k + 1..];
      r := Pass;
    }

    /** `handle()`: nothing without a vao; otherwise each entry holding a
        texture is used at its stored unit, in list order, and the vao then
        renders. */
    method Handle() returns (uses: seq<Use>, rendered: bool)
      ensures !hasVao ==> uses == [] && !rendered
      ensures hasVao ==> uses == UsesOf(textures) && rendered
    {
      uses := [];
      if !hasVao {
        return uses, false;
      }
      var i := 0;
      while i < |textures|
        invariant 0 <= i <= |textures|
        invariant uses + UsesOf(textures[i..]) == UsesOf(textures)
      {
        assert textures[i..] == [textures[i]] + textures[i + 1..];
        UsesOfConcat([textures[i]], textures[i + 1..]);
        if textures[i].tex.Some? {
          uses := uses + [Use(textures[i].unit, textures[i].tex.value)];
        }
        i := i + 1;
      }
      rendered := true;
    }

    /** The textures `__on_clean__` releases: those held by an entry and not in
        the cache. */
    ghost function ToRelease(cache: TextureCache): set<Texture>
      reads this, cache
    {
      set i | 0 <= i < |textures| && textures[i].tex.Some? && !cache.IsCached(textures[i].tex.value) :: textures[i].tex.value
    }

    /** `__on_clean__()`: nothing without a vao; otherwise every texture held
        and not cached is released (cached ones are left to the cache), and
        the table ends empty. Releasing the vao is not modelled. */
    method OnClean(cache: TextureCache)
      modifies `textures, (if hasVao then ToRelease(cache) else {})
      ensures !hasVao ==> textures == old(textures)
      ensures hasVao ==> textures == []
      ensures hasVao ==> forall t | t in old(ToRelease(cache)) :: t.released
    {
      if !hasVao {
        return;
      }
      ghost var release := ToRelease(cache);
      var i := 0;
      while i < |textures|
        invariant 0 <= i <= |textures|
        invariant textures == old(textures)
        invariant forall j | 0 <= j < i && textures[j].tex.Some? && !cache.IsCached(textures[j].tex.value) ::
                    textures[j].tex.value.released
      {
        var s := textures[i];
        if s.tex.Some? && !cache.IsCached(s.tex.value) {
          s.tex.value.Clean();
        }
        i := i + 1;
      }
      textures := [];
      forall t | t in release ensures t.released {
        var j :| 0 <= j < |old(textures)| && old(textures)[j].tex.Some? && !cache.IsCached(old(textures)[j].tex.value)
                 && old(textures)[j].tex.value == t;
      }
    }
  }
}

=== FILE: camera.dfy ===
/** The 2D camera: it sits at a pixel position, works out the chunk it is in,
    and enumerates the square of chunks within its render distance. */
module Camera {
  import opened Coords
  import opened Entities

  /** The chunks `(px, y + cy)` for y from `y` up to but not including r: the
      inner loop of the enumeration. */
  function Column(px: int, cy: int, r: int, y: int): seq<ChunkPos>
    decreases r - y
  {
    if y >= r then [] else [(px, y + cy)] + Column(px, cy, r, y + 1)
  }

  /** The columns for x from `x` up to but not including r: the outer loop. */
  function Columns(c: ChunkPos, r: int, x: int): seq<ChunkPos>
    decreases r - x
  {
    if x >= r then [] else Column(x + c.0, c.1, r, -r) + Columns(c, r, x + 1)
  }

  /** The chunks a camera in chunk c with render distance r enumerates, in the
      order it enumerates them. */
  function VisibleChunks(c: ChunkPos, r: int): seq<ChunkPos> {
    Columns(c, r, -r)
  }

  /** x-major, then y: the order of the nested loops. */
  predicate Before(p: ChunkPos, q: ChunkPos) {
    p.0 < q.0 || (p.0 == q.0 && p.1 < q.1)
  }

  predicate StrictlyOrdered(s: seq<ChunkPos>) {
    forall i, j | 0 <= i < j < |s| :: Before(s[i], s[j])
  }

  class Camera2D {
    /** `_position`, inherited from the entity. */
    var position: Vec3
    var chunkPos: ChunkPos
    const renderDistance: int
    /** The chunk size in pixels, `DEFAULT_CHUNK_PIXEL_WIDTH` and `_HEIGHT`. */
    const chunkWidth: int
    const chunkHeight: int

    /** `Camera2D(render_distance)`: at the origin, in chunk (0, 0). */
    constructor (renderDistance: int, chunkWidth: int, chunkHeight: int)
      requires chunkWidth > 0 && chunkHeight > 0
      ensures this.renderDistance == renderDistance
      ensures this.chunkWidth == chunkWidth && this.chunkHeight == chunkHeight
      ensures position == Vec3(0, 0, 0) && chunkPos == (0, 0)
    {
      this.renderDistance := renderDistance;
      this.chunkWidth := chunkWidth;
      this.chunkHeight := chunkHeight;
      position := Vec3(0, 0, 0);
      chunkPos := (0, 0);
    }

    /** `generate_visible_chunks`: record the camera's chunk, then enumerate
        `(x + cx, y + cy)` for x and y in `range(-r, r)`. */
    method GenerateVisibleChunks() returns (out: seq<ChunkPos>)
      requires chunkWidth > 0 && chunkHeight > 0
      modifies `chunkPos
      ensures chunkPos == ChunkOf(position.x, position.y, chunkWidth, chunkHeight)
      ensures out == VisibleChunks(chunkPos, renderDistance)
    {
      chunkPos := ChunkOf(position.x, position.y, chunkWidth, chunkHeight);
      var c := chunkPos;
      var r := renderDistance;
      out := [];
      var x := -r;
      while x < r
        invariant out + Columns(c, r, x) == VisibleChunks(c, r)
        decreases r - x
      {
        ghost var rest := Columns(c, r, x + 1);
        assert Columns(c, r, x) == Column(x + c.0, c.1, r, -r) + rest;
        assert out + Column(x + c.0, c.1, r, -r) + rest == out + (Column(x + c.0, c.1, r, -r) + rest);
        var y := -r;
        while y < r
          invariant out + Column(x + c.0, c.1, r, y) + rest == VisibleChunks(c, r)
          decreases r - y
        {
          ghost var tail := Column(x + c.0, c.1, r, y + 1);
          assert Column(x + c.0, c.1, r, y) == [(x + c.0, y + c.1)] + tail;
          assert out + ([(x + c.0, y + c.1)] + tail) == (out + [(x + c.0, y + c.1)]) + tail;
          out := out + [(x + c.0, y + c.1)];
          y := y + 1;
        }
        x := x + 1;
      }
    }
  }

  /** The inner loop yields r - y chunks. */
  lemma {:induction false} ColumnLength(px: int, cy: int, r: int, y: int)
    requires y <= r
    ensures |Column(px, cy, r, y)| == r - y
    decreases r - y
  {
    if y < r {
      ColumnLength(px, cy, r, y + 1);
    }
  }

  /** Each remaining column holds 2r chunks. */
  lemma {:induction false} ColumnsLength(c: ChunkPos, r: int, x: int)
    requires -r <= x <= r
    ensures |Columns(c, r, x)| == (r - x) * (2 * r)
    decreases r - x
  {
    if x < r {
      ColumnLength(x + c.0, c.1, r, -r);
      ColumnsLength(c, r, x + 1);
    }
  }

  /** Exactly (2r)² chunks are enumerated, and none at all when r ≤ 0. */
  lemma VisibleCount(c: ChunkPos, r: int)
    ensures r > 0 ==> |VisibleChunks(c, r)| == (2 * r) * (2 * r)
    ensures r <= 0 ==> VisibleChunks(c, r) == []
  {
    if r > 0 {
      ColumnsLength(c, r, -r);
    }
  }

  lemma {:induction false} ColumnMembers(px: int, cy: int, r: int, y: int, p: ChunkPos)
    ensures p in Column(px, cy, r, y) <==> p.0 == px && y + cy <= p.1 < r + cy
    decreases r - y
  {
    if y < r {
      ColumnMembers(px, cy, r, y + 1, p);
    }
  }

  lemma {:induction false} ColumnsMembers(c: ChunkPos, r: int, x: int, p: ChunkPos)
    ensures p in Columns(c, r, x) <==> x + c.0 <= p.0 < r + c.0 && c.1 - r <= p.1 < c.1 + r
    decreases r - x
  {
    if x < r {
      ColumnMembers(x + c.0, c.1, r, -r, p);
      ColumnsMembers(c, r, x + 1, p);
    }
  }

  /** A chunk is enumerated exactly when it lies in the half-open square
      [cx - r, cx + r) × [cy - r, cy + r): the far edges are never included. */
  lemma VisibleMembers(c: ChunkPos, r: int, p: ChunkPos)
    ensures p in VisibleChunks(c, r) <==> c.0 - r <= p.0 < c.0 + r && c.1 - r <= p.1 < c.1 + r
  {
    ColumnsMembers(c, r, -r, p);
  }

  /** The camera's own chunk is among those enumerated exactly when r ≥ 1. */
  lemma OwnChunkVisible(c: ChunkPos, r: int)
    ensures c in VisibleChunks(c, r) <==> r >= 1
  {
    VisibleMembers(c, r, c);
  }

  /** Joining two strictly ordered runs, the first wholly before the second,
      keeps the order strict. */
  lemma ConcatOrdered(s: seq<ChunkPos>, t: seq<ChunkPos>)
    requires StrictlyOrdered(s) && StrictlyOrdered(t)
    requires forall p, q | p in s && q in t :: Before(p, q)
    ensures StrictlyOrdered(s + t)
  {
    forall i, j | 0 <= i < j < |s + t| ensures Before((s + t)[i], (s + t)[j]) {
      if j < |s| {
        assert (s + t)[i] == s[i] && (s + t)[j] == s[j];
      } else if i >= |s| {
        assert (s + t)[i] == t[i - |s|] && (s + t)[j] == t[j - |s|];
      } else {
        assert (s + t)[i] == s[i] && (s + t)[j] == t[j - |s|];
      }
    }
  }

  lemma {:induction false} ColumnOrdered(px: int, cy: int, r: int, y: int)
    ensures StrictlyOrdered(Column(px, cy, r, y))
    decreases r - y
  {
    if y < r {
      ColumnOrdered(px, cy, r, y + 1);
      forall p, q | p in [(px, y + cy)] && q in Column(px, cy, r, y + 1) ensures Before(p, q) {
        ColumnMembers(px, cy, r, y + 1, q);
      }
      ConcatOrdered([(px, y + cy)], Column(px, cy, r, y + 1));
    }
  }

  lemma {:induction false} ColumnsOrdered(c: ChunkPos, r: int, x: int)
    ensures StrictlyOrdered(Columns(c, r, x))
    decreases r - x
  {
    if x < r {
      ColumnOrdered(x + c.0, c.1, r, -r);
      ColumnsOrdered(c, r, x + 1);
      forall p, q | p in Column(x + c.0, c.1, r, -r) && q in Columns(c, r, x + 1) ensures Before(p, q) {
        ColumnMembers(x + c.0, c.1, r, -r, p);
        ColumnsMembers(c, r, x + 1, q);
      }
      ConcatOrdered(Column(x + c.0, c.1, r, -r), Columns(c, r, x + 1));
    }
  }

  /** The enumeration is x-major with y ascending inside each x, and so no
      chunk is enumerated twice. */
  lemma VisibleOrdered(c: ChunkPos, r: int)
    ensures StrictlyOrdered(VisibleChunks(c, r))
    ensures forall i, j | 0 <= i < j < |VisibleChunks(c, r)| :: VisibleChunks(c, r)[i] != VisibleChunks(c, r)[j]
  {
    ColumnsOrdered(c, r, -r);
  }
}

=== FILE: coords.dfy ===
/** World positions to chunk coordinates: each axis is floor-divided by the
    chunk's pixel size, `(x // W, y // H)`, so chunks tile the plane and
    negative positions fall into negative chunks. */
module Coords {
  import opened Prelude

  /** The chunk holding the point (x, y), for chunks W pixels wide and H high. */
  function ChunkOf(x: int, y: int, w: int, h: int): (c: (int, int))
    requires w > 0 && h > 0
    ensures w * c.0 <= x < w * c.0 + w
    ensures h * c.1 <= y < h * c.1 + h
  {
    (FloorDiv(x, w), FloorDiv(y, h))
  }

  /** A chunk is the only one whose pixel span contains the point: the chunk
      of a point is decided by the brackets alone. */
  lemma ChunkOfUnique(x: int, y: int, w: int, h: int, c: (int, int))
    requires w > 0 && h > 0
    requires w * c.0 <= x < w * c.0 + w
    requires h * c.1 <= y < h * c.1 + h
    ensures ChunkOf(x, y, w, h) == c
  {
    FloorDivUnique(x, w, c.0);
    FloorDivUnique(y, h, c.1);
  }

  /** Rounding is toward negative infinity, not toward zero: one pixel left of
      and above the origin is in chunk (-1, -1), not (0, 0). */
  lemma ChunkOfRoundsDown(w: int, h: int)
    requires w > 0 && h > 0
    ensures ChunkOf(-1, -1, w, h) == (-1, -1)
  {
    ChunkOfUnique(-1, -1, w, h, (-1, -1));
  }

  /** Moving a whole chunk's width (or height) moves to the neighbouring chunk. */
  lemma ChunkOfShift(x: int, y: int, w: int, h: int, i: int, j: int)
    requires w > 0 && h > 0
    ensures ChunkOf(x + i * w, y + j * h, w, h) == (ChunkOf(x, y, w, h).0 + i, ChunkOf(x, y, w, h).1 + j)
  {
    var c := ChunkOf(x, y, w, h);
    assert w * (c.0 + i) == w * c.0 + i * w;
    assert h * (c.1 + j) == h * c.1 + j * h;
    ChunkOfUnique(x + i * w, y + j * h, w, h, (c.0 + i, c.1 + j));
  }
}

=== FILE: counter.dfy ===
/** The class-level id counters of the engine (`Entity.ENTITY_ID_COUNTER`,
    `ECSHandler.COMPONENT_UUID_COUNTER`): each request adds one to the counter
    and hands out the new value, so no id is handed out twice. */
module Counters {

  class Counter {
    var value: nat
    /** Every id this counter has handed out so far. */
    ghost var issued: set<int>

    ghost predicate Valid()
      reads this
    {
      forall i | i in issued :: 0 < i <= value
    }

    /** The class attribute's initial value, `COUNTER = 0`. */
    constructor ()
      ensures Valid() && value == 0 && issued == {}
    {
      value := 0;
      issued := {};
    }

    /** `cls.COUNTER += 1; return cls.COUNTER` */
    method Next() returns (id: int)
      requires Valid()
      modifies this
      ensures Valid()
      ensures id == old(value) + 1 && value == id
      ensures forall i | i in old(issued) :: i < id
      ensures id !in old(issued) && issued == old(issued) + {id}
    {
      value := value + 1;
      id := value;
      issued := issued + {id};
    }
  }
}

=== FILE: dicts.dfy ===
/** Python dictionaries. A `dict` is a finite map that also remembers the order
    in which its keys were first inserted: `values()` and iteration follow that
    order, assigning to a present key keeps its place, and deleting a key takes
    it out of the order. The engine iterates dicts of components, chunks, layers
    and entities, so the order is part of the model. */
module Dicts {
  import opened Prelude

  datatype Dict<K, V> = Dict(keys: seq<K>, items: map<K, V>)

  predicate Distinct<K(==)>(s: seq<K>) {
    forall i, j :: 0 <= i < j < |s| ==> s[i] != s[j]
  }

  /** The insertion order lists every key of the map exactly once. */
  predicate Valid<K(==), V>(d: Dict<K, V>) {
    && Distinct(d.keys)
    && (forall k | k in d.items :: k in d.keys)
    && (forall k | k in d.keys :: k in d.items)
  }

  /** `{}` */
  function Empty<K(==), V>(): (d: Dict<K, V>)
    ensures Valid(d) && d.items == map[] && d.keys == []
  {
    Dict([], map[])
  }

  /** `d.get(k)` */
  function Get<K(==), V>(d: Dict<K, V>, k: K): (r: Option<V>)
    ensures r.Some? <==> k in d.items
    ensures r.Some? ==> r.value == d.items[k]
  {
    if k in d.items then Some(d.items[k]) else None
  }

  /** `d[k] = v`: a new key goes to the end of the order, a present key keeps
      its place and only its value changes. */
  function Put<K(==), V>(d: Dict<K, V>, k: K, v: V): (r: Dict<K, V>)
    ensures Valid(d) ==> Valid(r)
    ensures r.items == d.items[k := v]
    ensures k in d.items ==> r.keys == d.keys
    ensures k !in d.items ==> r.keys == d.keys + [k]
  {
    if k in d.items then Dict(d.keys, d.items[k := v]) else Dict(d.keys + [k], d.items[k := v])
  }

  /** The sequence with the first occurrence of x taken out. */
  function RemoveFirst<K(==)>(s: seq<K>, x: K): (r: seq<K>)
    requires Distinct(s)
    ensures Distinct(r)
    ensures forall y | y in r :: y in s && y != x
    ensures forall y | y in s && y != x :: y in r
    ensures x in s ==> |r| == |s| - 1
    ensures x !in s ==> r == s
  {
    if s == [] then []
    else if s[0] == x then s[1..]
    else
      var rest := RemoveFirst(s[1..], x);
      assert forall j :: 0 <= j < |rest| ==> rest[j] != s[0] by {
        forall j | 0 <= j < |rest| ensures rest[j] != s[0] {
          assert rest[j] in rest;
          var k :| 0 <= k < |s[1..]| && s[1..][k] == rest[j];
          assert s[k + 1] == rest[j];
        }
      }
      [s[0]] + rest
  }

  /** `del d[k]` for a present key. */
  function Remove<K(==), V>(d: Dict<K, V>, k: K): (r: Dict<K, V>)
    requires Valid(d) && k in d.items
    ensures Valid(r)
    ensures r.items == d.items - {k}
    ensures |r.keys| == |d.keys| - 1
  {
    Dict(RemoveFirst(d.keys, k), d.items - {k})
  }

  /** `d.pop(k)` (and `del d[k]`): raises KeyError when k is absent. */
  function Pop<K(==), V>(d: Dict<K, V>, k: K): (r: Result<Dict<K, V>>)
    requires Valid(d)
    ensures r.Ok? <==> k in d.items
    ensures r.Err? ==> r.error == KeyError
    ensures r.Ok? ==> Valid(r.value) && r.value.items == d.items - {k}
  {
    if k in d.items then Ok(Remove(d, k)) else Err(KeyError)
  }

  /** `list(d.values())`: the values in key-insertion order. */
  function Values<K(==), V>(d: Dict<K, V>): (r: seq<V>)
    requires Valid(d)
    ensures |r| == |d.keys|
    ensures forall i :: 0 <= i < |r| ==> r[i] == d.items[d.keys[i]]
  {
    seq(|d.keys|, i requires 0 <= i < |d.keys| => d.items[d.keys[i]])
  }

  /** Every value listed by `values()` is stored under some key, and every
      stored value is listed. */
  lemma {:induction false} ValuesAreStored<K, V>(d: Dict<K, V>, v: V)
    requires Valid(d)
    ensures v in Values(d) <==> exists k :: k in d.items && d.items[k] == v
  {
    var vs := Values(d);
    if v in vs {
      var i :| 0 <= i < |vs| && vs[i] == v;
      assert d.keys[i] in d.items;
    }
    if exists k :: k in d.items && d.items[k] == v {
      var k :| k in d.items && d.items[k] == v;
      assert k in d.keys;
      var i :| 0 <= i < |d.keys| && d.keys[i] == k;
      assert vs[i] == v;
    }
  }

  /** Inserting a new key appends its value to `values()`. */
  lemma {:induction false} ValuesAfterPutNew<K, V>(d: Dict<K, V>, k: K, v: V)
    requires Valid(d) && k !in d.items
    ensures Values(Put(d, k, v)) == Values(d) + [v]
  {
    var r := Put(d, k, v);
    assert forall i :: 0 <= i < |d.keys| ==> d.keys[i] != k;
    assert forall i :: 0 <= i < |d.keys| ==> Values(r)[i] == Values(d)[i];
  }

  /** Assigning a value to a present key replaces that value in place in
      `values()`; no position moves. */
  lemma {:induction false} ValuesAfterPutExisting<K, V>(d: Dict<K, V>, i: nat, v: V)
    requires Valid(d) && i < |d.keys|
    ensures Values(Put(d, d.keys[i], v)) == Values(d)[i := v]
  {
    var k := d.keys[i];
    assert forall j :: 0 <= j < |d.keys| && j != i ==> d.keys[j] != k;
  }

  /** Writing back the value already stored changes nothing, not even the order. */
  lemma {:induction false} PutStoredIsIdentity<K, V>(d: Dict<K, V>, k: K)
    requires Valid(d) && k in d.items
    ensures Put(d, k, d.items[k]) == d
  {
    assert d.items[k := d.items[k]] == d.items;
  }

  lemma {:induction false} RemoveFirstOfAppended<K>(s: seq<K>, x: K)
    requires Distinct(s) && x !in s
    ensures Distinct(s + [x]) && RemoveFirst(s + [x], x) == s
  {
    if s != [] {
      assert (s + [x])[1..] == s[1..] + [x];
      RemoveFirstOfAppended(s[1..], x);
      assert s == [s[0]] + s[1..];
    }
  }

  /** Inserting a new key and then deleting it restores the dict exactly,
      insertion order included. */
  lemma {:induction false} PutThenRemoveRestores<K, V>(d: Dict<K, V>, k: K, v: V)
    requires Valid(d) && k !in d.items
    ensures Remove(Put(d, k, v), k) == d
  {
    assert k !in d.keys;
    RemoveFirstOfAppended(d.keys, k);
    assert d.items[k := v] - {k} == d.items;
  }

  /** The identity, the key function of dicts that store each object under
      its own identity (`d[id(x)] = x`). */
  function Self<T>(x: T): T {
    x
  }

  /** Every entry is stored under the key its value computes. */
  predicate KeyedBy<K(==), V>(d: Dict<K, V>, key: V -> K) {
    forall k | k in d.items :: key(d.items[k]) == k
  }

  /** `for x in q: d[key(x)] = x`, the flush loop of the engine's delta queues. */
  function PutEach<K(==), V>(d: Dict<K, V>, q: seq<V>, key: V -> K): (r: Dict<K, V>)
    ensures Valid(d) ==> Valid(r)
    ensures KeyedBy(d, key) ==> KeyedBy(r, key)
    decreases |q|
  {
    if q == [] then d else PutEach(Put(d, key(q[0]), q[0]), q[1..], key)
  }

  /** After the flush every queued value's key is present, holding a value with
      that key; keys no queued value computes answer as before; no other key
      appears. */
  lemma {:induction false} PutEachStores<K, V>(d: Dict<K, V>, q: seq<V>, key: V -> K)
    ensures forall x | x in q :: key(x) in PutEach(d, q, key).items && key(PutEach(d, q, key).items[key(x)]) == key(x)
    ensures forall k | (forall x | x in q :: key(x) != k) :: Get(PutEach(d, q, key), k) == Get(d, k)
    ensures forall k | k in PutEach(d, q, key).items :: k in d.items || exists x | x in q :: key(x) == k
    decreases |q|
  {
    if q != [] {
      var d' := Put(d, key(q[0]), q[0]);
      PutEachStores(d', q[1..], key);
      assert forall x | x in q :: x == q[0] || x in q[1..];
      var r := PutEach(d, q, key);
      if forall x | x in q[1..] :: key(x) != key(q[0]) {
        assert Get(r, key(q[0])) == Get(d', key(q[0]));
      } else {
        var y :| y in q[1..] && key(y) == key(q[0]);
        assert key(r.items[key(y)]) == key(y);
      }
    }
  }

  /** Flushing q then q' is flushing q + q'. */
  lemma {:induction false} PutEachAppend<K, V>(d: Dict<K, V>, q: seq<V>, q': seq<V>, key: V -> K)
    ensures PutEach(PutEach(d, q, key), q', key) == PutEach(d, q + q', key)
    decreases |q|
  {
    if q != [] {
      assert (q + q')[0] == q[0] && (q + q')[1..] == q[1..] + q';
      PutEachAppend(Put(d, key(q[0]), q[0]), q[1..], q', key);
    } else {
      assert q + q' == q';
    }
  }
}

=== FILE: ecs.dfy ===
/** The ECS registry: a dict from component class to a dict of that class's
    components keyed by uuid. Registering a component links it to its entity
    and to the registry, numbers it, and files it under its class. */
module Ecs {
  import opened Prelude
  import opened Dicts
  import opened Counters
  import opened Entities

  class ECSHandler {
    /** `_components`: class -> uuid -> component. */
    var components: map<ClassName, Dict<int, Component>>

    ghost predicate Valid()
      reads this
    {
      forall t | t in components :: Dicts.Valid(components[t])
    }

    constructor ()
      ensures Valid() && components == map[]
    {
      components := map[];
    }

    /** `generate_aspect_uuid` increments `ASPECT_UUID_COUNTER`, an attribute the
        class never defines, so every call raises AttributeError. */
    static function GenerateAspectUuid(): (r: Result<int>)
      ensures r.Err? && r.error == AttributeError
    {
      Err(AttributeError)
    }

    /** `get_component(cls, uuid)`: KeyError for an unknown class or uuid. */
    function GetComponent(cls: ClassName, uuid: int): (r: Result<Component>)
      reads this
      ensures r.Ok? <==> cls in components && uuid in components[cls].items
      ensures r.Ok? ==> r.value == components[cls].items[uuid]
      ensures r.Err? ==> r.error == KeyError
    {
      if cls in components && uuid in components[cls].items then Ok(components[cls].items[uuid])
      else Err(KeyError)
    }

    /** `get_components(cls)`: the class's bucket in registration order;
        KeyError, not an empty result, for a class with no bucket. */
    function GetComponents(cls: ClassName): (r: Result<seq<Component>>)
      requires Valid()
      reads this
      ensures r.Ok? <==> cls in components
      ensures r.Err? ==> r.error == KeyError
      ensures r.Ok? ==> |r.value| == |components[cls].keys|
      ensures r.Ok? ==> forall x | x in r.value :: exists u :: u in components[cls].items && components[cls].items[u] == x
      ensures r.Ok? ==> forall u | u in components[cls].items :: components[cls].items[u] in r.value
    {
      if cls in components then
        var vs := Values(components[cls]);
        assert forall u | u in components[cls].items :: components[cls].items[u] in vs by {
          forall u | u in components[cls].items ensures components[cls].items[u] in vs {
            ValuesAreStored(components[cls], components[cls].items[u]);
          }
        }
        assert forall x | x in vs :: exists u :: u in components[cls].items && components[cls].items[u] == x by {
          forall x | x in vs ensures exists u :: u in components[cls].items && components[cls].items[u] == x {
            var i :| 0 <= i < |vs| && vs[i] == x;
            var u := components[cls].keys[i];
            assert u in components[cls].items && components[cls].items[u] == x;
          }
        }
        Ok(vs)
      else Err(KeyError)
    }

    /** `iterate_components(cls)`: yields the bucket's components one by one. */
    method IterateComponents(cls: ClassName) returns (r: Result<seq<Component>>)
      requires Valid()
      ensures r == GetComponents(cls)
    {
      if cls !in components {
        return Err(KeyError);
      }
      var bucket := components[cls];
      var out: seq<Component> := [];
      var i := 0;
      while i < |bucket.keys|
        invariant 0 <= i <= |bucket.keys|
        invariant |out| == i
        invariant forall j :: 0 <= j < i ==> out[j] == bucket.items[bucket.keys[j]]
      {
        out := out + [bucket.items[bucket.keys[i]]];
        i := i + 1;
      }
      assert out == Values(bucket);
      r := Ok(out);
    }

    /** `add_component(component, entity)`, step by step: the entity stores the
        component under the uuid it has BEFORE numbering, the back-links are
        set, `__post_init__` numbers it if it has no uuid yet, and the
        component is filed under its class and its (new) uuid. */
    method AddComponent(c: Component, e: Entity, ids: Counter)
      requires Valid() && e.Valid() && ids.Valid()
      modifies this, c, e`components, ids
      ensures Valid() && e.Valid() && ids.Valid()
      ensures e.components == Put(old(e.components), Uuid(old(c.uuid)), c)
      ensures c.handler == this && c.entity == e
      ensures c.uuid != 0
      ensures old(c.uuid) != 0 ==> c.uuid == old(c.uuid) && ids.value == old(ids.value) && ids.issued == old(ids.issued)
      ensures old(c.uuid) == 0 ==>
                && c.uuid == ids.value == old(ids.value) + 1 && c.uuid !in old(ids.issued)
                && ids.issued == old(ids.issued) + {c.uuid}
      ensures components == FileUnder(old(components), c.cls, c.uuid, c)
    {
      e.components := Put(e.components, Uuid(c.uuid), c);
      c.handler := this;
      c.entity := e;
      c.PostInit(ids);
      components := FileUnder(components, c.cls, c.uuid, c);
    }

    /** `remove_component(component)`: nothing happens when the class has no
        bucket; otherwise the entity pops `id(component)` (AttributeError
        without an entity, KeyError when absent) and then the bucket deletes
        the uuid (KeyError when absent). */
    method RemoveComponent(c: Component) returns (r: Outcome)
      requires Valid()
      requires c.entity != null ==> c.entity.Valid()
      modifies this, (if c.entity == null then {} else {c.entity})`components
      ensures Valid()
      ensures c.entity != null ==> c.entity.Valid()
      ensures c.cls !in old(components) ==> r == Pass && components == old(components)
      ensures c.cls !in old(components) && c.entity != null ==> c.entity.components == old(c.entity.components)
      ensures c.cls in old(components) && c.entity == null ==> r == Fail(AttributeError) && components == old(components)
      ensures c.cls in old(components) && c.entity != null && ObjectId(c) !in old(c.entity.components.items) ==>
                r == Fail(KeyError) && components == old(components) && c.entity.components == old(c.entity.components)
      ensures c.cls in old(components) && c.entity != null && ObjectId(c) in old(c.entity.components.items) ==>
                && c.entity.components == Remove(old(c.entity.components), ObjectId(c))
                && (r.Pass? <==> c.uuid in old(components)[c.cls].items)
                && (r.Pass? ==> components == old(components)[c.cls := Remove(old(components)[c.cls], c.uuid)])
                && (r.Fail? ==> r == Fail(KeyError) && components == old(components))
    {
      if c.cls !in components {
        return Pass;
      }
      if c.entity == null {
        return Fail(AttributeError);
      }
      r := c.entity.RemoveComponent(c);
      if r.Fail? {
        return r;
      }
      var bucket := components[c.cls];
      if c.uuid !in bucket.items {
        return Fail(KeyError);
      }
      components := components[c.cls := Remove(bucket, c.uuid)];
    }
  }

  /** The registry's filing step, `self._components.setdefault(cls, {})[uuid] = c`
      (written in the source as a membership test and an insertion). */
  function FileUnder(m: map<ClassName, Dict<int, Component>>, cls: ClassName, uuid: int, c: Component)
    : (r: map<ClassName, Dict<int, Component>>)
    requires forall t | t in m :: Dicts.Valid(m[t])
    ensures forall t | t in r :: Dicts.Valid(r[t])
    ensures r.Keys == m.Keys + {cls}
    ensures r[cls].items == (if cls in m then m[cls].items else map[])[uuid := c]
    ensures forall t | t in m && t != cls :: r[t] == m[t]
  {
    var bucket := if cls in m then m[cls] else Empty();
    m[cls := Put(bucket, uuid, c)]
  }

  /** After filing, the registry's lookup finds the component, and every other
      entry answers as before. */
  lemma FiledIsFound(h: ECSHandler, m: map<ClassName, Dict<int, Component>>, cls: ClassName, uuid: int, c: Component)
    requires forall t | t in m :: Dicts.Valid(m[t])
    requires h.components == FileUnder(m, cls, uuid, c)
    ensures h.GetComponent(cls, uuid) == Ok(c)
    ensures forall t, u | (t != cls || u != uuid) && t in m && u in m[t].items :: h.GetComponent(t, u) == Ok(m[t].items[u])
  {
  }

  /** Filing a component a second time under the same class and uuid changes
      nothing, not even the order of the bucket. */
  lemma {:induction false} FileUnderAgain(m: map<ClassName, Dict<int, Component>>, cls: ClassName, uuid: int, c: Component)
    requires forall t | t in m :: Dicts.Valid(m[t])
    requires cls in m && uuid in m[cls].items && m[cls].items[uuid] == c
    ensures FileUnder(m, cls, uuid, c) == m
  {
    PutStoredIsIdentity(m[cls], uuid);
  }

  /** A new uuid goes to the end of its bucket's order. */
  lemma {:induction false} FileUnderAppends(m: map<ClassName, Dict<int, Component>>, cls: ClassName, uuid: int, c: Component)
    requires forall t | t in m :: Dicts.Valid(m[t])
    requires cls !in m || uuid !in m[cls].items
    ensures FileUnder(m, cls, uuid, c)[cls].keys == (if cls in m then m[cls].keys else []) + [uuid]
  {
  }

  /** Registering a fresh component through the registry and then removing it
      through the registry fails: the entity stored the component under its old
      uuid, but removal pops `id(component)`. */
  method RegistryRemoveAfterAddFails(h: ECSHandler, c: Component, e: Entity, ids: Counter) returns (r: Outcome)
    requires h.Valid() && e.Valid() && ids.Valid()
    requires ObjectId(c) !in e.components.items
    modifies h, c, e, ids
    ensures r == Fail(KeyError)
    ensures c.cls in h.components && h.GetComponent(c.cls, c.uuid) == Ok(c)
  {
    h.AddComponent(c, e, ids);
    r := h.RemoveComponent(c);
  }
}

=== FILE: entity.dfy ===
/** Entities and the components attached to them.

    `Entity` is the engine's container object: an id from a process-wide
    counter, a dict of components, and current/previous position and chunk
    coordinate. `Component` is the ECS unit of behaviour (declared in the ECS
    registry's source file); it lives here because a component points at its
    entity and an entity stores its components. */
module Entities {
  import opened Prelude
  import opened Dicts
  import opened Counters

  /** A Python class, named; `isinstance` also accepts its base classes. */
  type ClassName = string

  /** A pygame vector, with integer coordinates. */
  datatype Vec3 = Vec3(x: int, y: int, z: int)

  /** A chunk coordinate `(x, y)`. */
  type ChunkPos = (int, int)

  datatype Rect = Rect(x: int, y: int, w: int, h: int)

  /** An entity's component dict is keyed both by `id(component)` (the entity's
      own `add_component`) and by `component._uuid` (the ECS registry's
      `add_component`); the two kinds of key never coincide. */
  datatype ComponentKey = ObjectId(component: Component) | Uuid(n: int)

  class Component {
    const name: string
    /** `component.__class__` */
    const cls: ClassName
    /** The classes `component.__class__` inherits from. */
    const bases: set<ClassName>
    var uuid: int
    /** `_ecs_handler`: the registry the component was added to. */
    var handler: object?
    var entity: Entity?

    constructor (name: string, cls: ClassName, bases: set<ClassName>)
      ensures this.name == name && this.cls == cls && this.bases == bases
      ensures uuid == 0 && handler == null && entity == null
    {
      this.name := name;
      this.cls := cls;
      this.bases := bases;
      uuid := 0;
      handler := null;
      entity := null;
    }

    /** `isinstance(component, c)` */
    predicate IsInstance(c: ClassName) {
      c == cls || c in bases
    }

    /** `__post_init__`: number the component on first registration only. */
    method PostInit(ids: Counter)
      requires ids.Valid()
      modifies this`uuid, ids
      ensures ids.Valid()
      ensures old(uuid) != 0 ==> uuid == old(uuid) && ids.value == old(ids.value) && ids.issued == old(ids.issued)
      ensures old(uuid) == 0 ==> uuid == ids.value == old(ids.value) + 1 && uuid !in old(ids.issued)
      ensures old(uuid) == 0 ==> ids.issued == old(ids.issued) + {uuid}
      ensures uuid != 0
    {
      if uuid == 0 {
        uuid := ids.Next();
      }
    }
  }

  /** The components of s that are instances of c, in the order of s. */
  function InstancesOf(s: seq<Component>, c: ClassName): (r: seq<Component>)
    ensures |r| <= |s|
    ensures forall x | x in r :: x in s && x.IsInstance(c)
    ensures forall x | x in s && x.IsInstance(c) :: x in r
  {
    if s == [] then []
    else
      var last := s[|s| - 1];
      assert forall x | x in s :: x in s[..|s| - 1] || x == last;
      InstancesOf(s[..|s| - 1], c) + (if last.IsInstance(c) then [last] else [])
  }

  /** Filtering a concatenation filters each part. */
  lemma {:induction false} InstancesOfAppend(a: seq<Component>, b: seq<Component>, c: ClassName)
    ensures InstancesOf(a + b, c) == InstancesOf(a, c) + InstancesOf(b, c)
    decreases |b|
  {
    if b == [] {
      assert a + b == a;
    } else {
      assert (a + b)[..|a + b| - 1] == a + b[..|b| - 1];
      InstancesOfAppend(a, b[..|b| - 1], c);
    }
  }

  /** The filter keeps every matching occurrence: each component appears in the
      result as often as it appears in s, when it is an instance of c. */
  lemma {:induction false} InstancesOfCounts(s: seq<Component>, c: ClassName, x: Component)
    ensures multiset(InstancesOf(s, c))[x] == if x.IsInstance(c) then multiset(s)[x] else 0
    decreases |s|
  {
    if s != [] {
      InstancesOfCounts(s[..|s| - 1], c, x);
      assert s == s[..|s| - 1] + [s[|s| - 1]];
    }
  }

  class Entity {
    const entityId: int
    var components: Dict<ComponentKey, Component>
    var prevPosition: Vec3
    var prevChunkPos: ChunkPos
    var position: Vec3
    var chunkPos: ChunkPos
    var rect: Rect
    /** `_world`, set when a world adds the entity. */
    var world: object?
    /** Whether the entity's class defines `__post_init__`: `Entity` itself does
        not; subclasses such as the world do. */
    const hasPostInitHook: bool

    ghost predicate Valid()
      reads this
    {
      Dicts.Valid(components)
    }

    /** `Entity()`: a fresh id, no components, everything at the origin. */
    constructor (ids: Counter, hasPostInitHook: bool)
      requires ids.Valid()
      modifies ids
      ensures Valid() && ids.Valid()
      ensures entityId == ids.value == old(ids.value) + 1
      ensures entityId !in old(ids.issued) && ids.issued == old(ids.issued) + {entityId}
      ensures components == Empty()
      ensures position == prevPosition == Vec3(0, 0, 0)
      ensures chunkPos == prevChunkPos == (0, 0)
      ensures rect == Rect(0, 0, 0, 0) && world == null
      ensures this.hasPostInitHook == hasPostInitHook
    {
      var id := ids.Next();
      entityId := id;
      components := Empty();
      prevPosition := Vec3(0, 0, 0);
      prevChunkPos := (0, 0);
      position := Vec3(0, 0, 0);
      chunkPos := (0, 0);
      rect := Rect(0, 0, 0, 0);
      world := null;
      this.hasPostInitHook := hasPostInitHook;
    }

    /** `self._components[id(component)] = component` */
    method AddComponent(c: Component)
      requires Valid()
      modifies this`components
      ensures Valid()
      ensures components == Put(old(components), ObjectId(c), c)
    {
      components := Put(components, ObjectId(c), c);
    }

    /** `self._components.pop(id(component))`: KeyError when absent. */
    method RemoveComponent(c: Component) returns (r: Outcome)
      requires Valid()
      modifies this`components
      ensures Valid()
      ensures r.Pass? <==> ObjectId(c) in old(components.items)
      ensures r.Pass? ==> components == Remove(old(components), ObjectId(c))
      ensures r.Fail? ==> r.error == KeyError && components == old(components)
    {
      var popped := Pop(components, ObjectId(c));
      if popped.Err? {
        return Fail(popped.error);
      }
      components := popped.value;
      r := Pass;
    }

    /** `get_components(c)`: the attached components that are instances of c,
        in dict order. */
    function GetComponents(c: ClassName): (r: seq<Component>)
      requires Valid()
      reads this
    {
      InstancesOf(Values(components), c)
    }

    /** `iterate_components(c)`: the generator twin of `get_components`. */
    method IterateComponents(c: ClassName) returns (r: seq<Component>)
      requires Valid()
      ensures r == GetComponents(c)
    {
      var all := Values(components);
      r := [];
      var i := 0;
      while i < |all|
        invariant 0 <= i <= |all|
        invariant r == InstancesOf(all[..i], c)
      {
        assert all[..i + 1][..i] == all[..i];
        if all[i].IsInstance(c) {
          r := r + [all[i]];
        }
        i := i + 1;
      }
      assert all[..|all|] == all;
    }
  }

  /** Adding a component the entity does not hold yet and removing it again
      gives back the entity's original dict. */
  lemma AddThenRemoveRestores(d: Dict<ComponentKey, Component>, c: Component)
    requires Dicts.Valid(d) && ObjectId(c) !in d.items
    ensures Remove(Put(d, ObjectId(c), c), ObjectId(c)) == d
  {
    PutThenRemoveRestores(d, ObjectId(c), c);
  }

  /** `get_components` of a class none of the components belongs to is empty,
      and otherwise holds exactly the matching components. */
  lemma GetComponentsExactly(e: Entity, c: ClassName)
    requires e.Valid()
    ensures (forall k | k in e.components.items :: !e.components.items[k].IsInstance(c)) ==> e.GetComponents(c) == []
    ensures forall x: Component :: x in e.GetComponents(c) <==> x.IsInstance(c) && exists k :: k in e.components.items && e.components.items[k] == x
  {
    forall x: Component
      ensures x in e.GetComponents(c) <==> x.IsInstance(c) && exists k :: k in e.components.items && e.components.items[k] == x
    {
      ValuesAreStored(e.components, x);
    }
    if forall k | k in e.components.items :: !e.components.items[k].IsInstance(c) {
      var r := e.GetComponents(c);
      if r != [] {
        assert r[0] in r;
        ValuesAreStored(e.components, r[0]);
      }
    }
  }
}

=== FILE: prelude.dfy ===
/** Failure-carrying datatypes for the exceptions the engine raises, and the two
    pieces of Python arithmetic the engine relies on: list indexing (negative
    indices count from the end) and floor division `//`. */
module Prelude {

  /** The Python exception classes the modelled code can raise. */
  datatype PyError =
    | KeyError
    | IndexError
    | AttributeError
    | NameError
    | ZeroDivisionError

  datatype Option<+T> = None | Some(value: T)

  datatype Result<+T> = Ok(value: T) | Err(error: PyError)

  /** The outcome of a statement sequence that returns nothing: it either runs to
      the end or stops at the first exception. */
  datatype Outcome = Pass | Fail(error: PyError)

  /** `s[i]` is defined in Python exactly for -|s| <= i < |s|. */
  predicate InRange(n: nat, i: int) {
    -(n as int) <= i < n
  }

  /** The position that Python's `s[i]` reads. */
  function Normalize(n: nat, i: int): (k: nat)
    requires InRange(n, i)
    ensures k < n
    ensures i >= 0 ==> k == i
    ensures i < 0 ==> k + (-i) == n
  {
    if i < 0 then n + i else i
  }

  /** `s[i]`, raising IndexError outside the Python range. */
  function PyIndex<T>(s: seq<T>, i: int): (r: Result<T>)
    ensures r.Ok? <==> InRange(|s|, i)
    ensures r.Ok? ==> r.value == s[Normalize(|s|, i)]
    ensures r.Err? ==> r.error == IndexError
  {
    if InRange(|s|, i) then Ok(s[Normalize(|s|, i)]) else Err(IndexError)
  }

  /** Python's `a // b`: the quotient rounded toward negative infinity, for
      either sign of the divisor (Dafny's own `/` is Euclidean). */
  function FloorDiv(a: int, b: int): (q: int)
    requires b != 0
    ensures b > 0 ==> b * q <= a < b * q + b
    ensures b < 0 ==> b * q + b < a <= b * q
  {
    if b > 0 then a / b else (-a) / (-b)
  }

  /** `a // b` as Python evaluates it, with division by zero as an exception. */
  function PyFloorDiv(a: int, b: int): (r: Result<int>)
    ensures r.Err? <==> b == 0
    ensures r.Err? ==> r.error == ZeroDivisionError
    ensures r.Ok? ==> r.value == FloorDiv(a, b)
  {
    if b == 0 then Err(ZeroDivisionError) else Ok(FloorDiv(a, b))
  }

  /** Floor division is unique: any q that brackets a between b*q and b*q + b
      is the quotient. */
  lemma FloorDivUnique(a: int, b: int, q: int)
    requires b > 0 && b * q <= a < b * q + b
    ensures FloorDiv(a, b) == q
  {
    var f := FloorDiv(a, b);
    if f < q {
      MulMonotone(b, f + 1, q);
    } else if f > q {
      MulMonotone(b, q + 1, f);
    }
  }

  lemma MulMonotone(b: int, x: int, y: int)
    requires b > 0 && x <= y
    ensures b * x <= b * y
  {
    assert b * y - b * x == b * (y - x);
  }
}

=== FILE: spritesheet.dfy ===
/** Sprite sheets: an image cut into named sprites, either along a regular grid
    (width, height, padding and spacing taken from a config dict) or from an
    explicit list of frames. */
module Sprites {
  import opened Prelude
  import opened Text
  import opened Entities

  // ---------------------------------------------------------------------
  // Config dicts
  // ---------------------------------------------------------------------

  const WidthKey: string := "w"
  const HeightKey: string := "h"
  const PadXKey: string := "padx"
  const PadYKey: string := "pady"
  const SpacingXKey: string := "spacingx"
  const SpacingYKey: string := "spacingy"
  const FramedataKey: string := "framedata"
  const HorizontalTilesKey: string := "horizontal_tiles"
  const VerticalTilesKey: string := "vertical_tiles"
  /** `SPRITESHEET_PADDING`: what separates a sheet's path from a sprite number. */
  const Separator: string := "||"

  /** A config value: the engine stores ints and the framedata flag. */
  datatype ConfigValue = Int(i: int) | Bool(b: bool)

  /** A Python bool is an int: True is 1 and False is 0. */
  function AsInt(v: ConfigValue): int {
    match v
    case Int(i) => i
    case Bool(b) => if b then 1 else 0
  }

  /** Python truthiness. */
  predicate IsTrue(v: ConfigValue) {
    AsInt(v) != 0
  }

  type Config = map<string, ConfigValue>

  /** `DEFAULT_CONFIG` */
  const DefaultConfig: Config := map[
    WidthKey := Int(18), HeightKey := Int(18), PadXKey := Int(0), PadYKey := Int(0),
    SpacingXKey := Int(0), SpacingYKey := Int(0), FramedataKey := Bool(false)]

  /** `__create_config(width, height, padx, pady, spacingx, spacingy, framedata)` */
  function CreateConfig(w: int, h: int, padx: int, pady: int, sx: int, sy: int, framedata: bool): (c: Config)
    ensures c.Keys == {WidthKey, HeightKey, PadXKey, PadYKey, SpacingXKey, SpacingYKey, FramedataKey}
  {
    map[WidthKey := Int(w), HeightKey := Int(h), PadXKey := Int(padx), PadYKey := Int(pady),
        SpacingXKey := Int(sx), SpacingYKey := Int(sy), FramedataKey := Bool(framedata)]
  }

  type Flat = (ConfigValue, ConfigValue, ConfigValue, ConfigValue, ConfigValue, ConfigValue, ConfigValue)

  /** The seven keys `flatten_config_values` reads. */
  predicate HasFlatKeys(c: Config) {
    && WidthKey in c && HeightKey in c && PadXKey in c && PadYKey in c
    && SpacingXKey in c && SpacingYKey in c && FramedataKey in c
  }

  /** `flatten_config_values(config)`: KeyError when a key is missing. */
  function Flatten(c: Config): (r: Result<Flat>)
    ensures r.Ok? <==> HasFlatKeys(c)
    ensures r.Err? ==> r.error == KeyError
    ensures r.Ok? ==> && r.value.0 == c[WidthKey] && r.value.1 == c[HeightKey]
                      && r.value.2 == c[PadXKey] && r.value.3 == c[PadYKey]
                      && r.value.4 == c[SpacingXKey] && r.value.5 == c[SpacingYKey]
                      && r.value.6 == c[FramedataKey]
  {
    if HasFlatKeys(c) then
      Ok((c[WidthKey], c[HeightKey], c[PadXKey], c[PadYKey], c[SpacingXKey], c[SpacingYKey], c[FramedataKey]))
    else Err(KeyError)
  }

  /** Flattening a created config gives back the arguments, in order. */
  lemma FlattenCreate(w: int, h: int, padx: int, pady: int, sx: int, sy: int, framedata: bool)
    ensures Flatten(CreateConfig(w, h, padx, pady, sx, sy, framedata))
            == Ok((Int(w), Int(h), Int(padx), Int(pady), Int(sx), Int(sy), Bool(framedata)))
  {
    var c := CreateConfig(w, h, padx, pady, sx, sy, framedata);
    assert HasFlatKeys(c);
  }

  /** Two created configs flatten alike exactly when they were created from the
      same arguments. */
  lemma FlattenCreateInjective(a: (int, int, int, int, int, int, bool), b: (int, int, int, int, int, int, bool))
    requires Flatten(CreateConfig(a.0, a.1, a.2, a.3, a.4, a.5, a.6)) == Flatten(CreateConfig(b.0, b.1, b.2, b.3, b.4, b.5, b.6))
    ensures a == b
  {
    FlattenCreate(a.0, a.1, a.2, a.3, a.4, a.5, a.6);
    FlattenCreate(b.0, b.1, b.2, b.3, b.4, b.5, b.6);
  }

  // ---------------------------------------------------------------------
  // Sprites and their names
  // ---------------------------------------------------------------------

  /** A piece of the sheet's image: the subsurface at a rect. Pixels are not
      modelled. */
  datatype Surface = Subsurface(area: Rect)

  /** An entry of `sprites`: `(name, snippet, rect)`. */
  datatype Sprite = Sprite(name: string, image: Surface, rect: Rect)

  /** A frame description: `[x, y, w, h, name]` in a framedata list, or a
      frame of a JSON sheet. */
  datatype FrameEntry = FrameEntry(rect: Rect, name: string)

  /** `gen_sprite_str_id(index)`: `f"{path}||{index}"`. */
  function SpriteName(path: string, index: int): string {
    path + Separator + IntToString(index)
  }

  /** Splitting a sprite name on `"||"` and taking the first part gives back the
      sheet's path, provided the path contains no `"||"` and does not end in
      `'|'` (if it did, its last bar and the separator would make a `"||"`
      earlier in the name). */
  lemma {:induction false} SpriteNameSplits(path: string, index: int)
    requires forall j | 0 <= j :: !OccursAt(path, Separator, j)
    requires path == [] || path[|path| - 1] != '|'
    ensures FirstField(SpriteName(path, index), Separator) == path
  {
    var s := SpriteName(path, index);
    var digits := IntToString(index);
    assert s == path + "||" + digits;
    assert OccursAt(s, Separator, |path|) by {
      assert s[|path|..|path| + 2] == "||";
    }
    forall j | 0 <= j < |path|
      ensures !OccursAt(s, Separator, j)
    {
      if j + 2 <= |path| {
        assert s[j..j + 2] == path[j..j + 2];
        assert !OccursAt(path, Separator, j);
      } else {
        assert s[j] == path[|path| - 1];
        NotOccursAt(s, Separator, j);
      }
    }
    FirstFieldAt(s, Separator, |path|);
    assert s[..|path|] == path;
  }

  /** Without the second condition the split goes wrong: the sheet `"a|"`
      names its sprites `"a|||…"`, whose first part is `"a"`. */
  lemma SpriteNameSplitsEarly()
    ensures FirstField(SpriteName("a|", 0), Separator) == "a"
  {
    var s := SpriteName("a|", 0);
    assert s == "a|||0";
    assert OccursAt(s, Separator, 1) by {
      assert s[1..3] == "||";
    }
    assert !OccursAt(s, Separator, 0) by {
      assert s[0] == 'a';
    }
    FirstFieldAt(s, Separator, 1);
  }

  /** Sprites made from frame entries: one per entry, in order, named and
      placed as the entry says. */
  function FromEntries(entries: seq<FrameEntry>): (s: seq<Sprite>)
    ensures |s| == |entries|
    ensures forall k | 0 <= k < |s| :: s[k] == Sprite(entries[k].name, Subsurface(entries[k].rect), entries[k].rect)
  {
    if entries == [] then []
    else [Sprite(entries[0].name, Subsurface(entries[0].rect), entries[0].rect)] + FromEntries(entries[1..])
  }

  lemma FromEntriesAppend(entries: seq<FrameEntry>, e: FrameEntry)
    ensures FromEntries(entries + [e]) == FromEntries(entries) + [Sprite(e.name, Subsurface(e.rect), e.rect)]
  {
    var s := FromEntries(entries + [e]);
    var t := FromEntries(entries) + [Sprite(e.name, Subsurface(e.rect), e.rect)];
    assert |s| == |t|;
    forall k | 0 <= k < |s| ensures s[k] == t[k] {
      if k < |entries| {
        assert (entries + [e])[k] == entries[k];
      }
    }
  }

  /** Grid sprites: the k-th rect is named after k - 1, because the name is
      generated from the list's length before the sprite is appended. */
  function Named(path: string, rects: seq<Rect>): (s: seq<Sprite>)
    ensures |s| == |rects|
  {
    seq(|rects|, k requires 0 <= k < |rects| => Sprite(SpriteName(path, k - 1), Subsurface(rects[k]), rects[k]))
  }

  // ---------------------------------------------------------------------
  // The grid walk
  // ---------------------------------------------------------------------

  /** The numbers the grid walk reads: the image size and the config's
      width, height, padding and spacing. */
  datatype Layout = Layout(imgW: int, imgH: int, w: int, h: int, padx: int, pady: int, sx: int, sy: int)
  {
    /** The largest left edge a slice may have. */
    function MaxLeft(): int { imgW - padx - w }
    /** The largest top edge a slice may have. */
    function MaxTop(): int { imgH - pady - h }
    /** Horizontal and vertical step. */
    function StepX(): int { w + sx }
    function StepY(): int { h + sy }

    /** The nested while loops come to an end: a step that does not advance is
        harmless only when its loop is never entered. */
    predicate Terminates() {
      MaxTop() < 0 || (StepY() > 0 && (MaxLeft() < padx || StepX() > 0))
    }

    /** Number of slices in a row: the lefts `padx + k * StepX()` that are at
        most `MaxLeft()`. */
    function Cols(): nat
      requires StepX() > 0
    {
      if padx > MaxLeft() then 0 else FloorDiv(MaxLeft() - padx, StepX()) + 1
    }

    /** Number of rows: the tops `k * StepY()` that are at most `MaxTop()`. */
    function Rows(): nat
      requires StepY() > 0
    {
      if 0 > MaxTop() then 0 else FloorDiv(MaxTop(), StepY()) + 1
    }
  }

  /** The inner loop: slices from `left` rightwards, in the row at `top`. */
  function RowRects(g: Layout, left: int, top: int): seq<Rect>
    requires g.StepX() > 0 || left > g.MaxLeft()
    decreases g.MaxLeft() - left + g.StepX()
  {
    if left > g.MaxLeft() then []
    else [Rect(left, top, g.w, g.h)] + RowRects(g, left + g.StepX(), top)
  }

  /** The outer loop: rows from `top` downwards, each starting at `padx`. */
  function GridRects(g: Layout, top: int): seq<Rect>
    requires g.StepY() > 0 || top > g.MaxTop()
    requires top > g.MaxTop() || g.StepX() > 0 || g.padx > g.MaxLeft()
    decreases g.MaxTop() - top + g.StepY()
  {
    if top > g.MaxTop() then []
    else RowRects(g, g.padx, top) + GridRects(g, top + g.StepY())
  }

  /** The slices of a whole sheet. */
  function GridSlices(g: Layout): seq<Rect>
    requires g.Terminates()
  {
    GridRects(g, 0)
  }

  /** The number of slices left in a row, from `left` on. */
  function ColsFrom(g: Layout, left: int): nat
    requires g.StepX() > 0
  {
    if left > g.MaxLeft() then 0 else FloorDiv(g.MaxLeft() - left, g.StepX()) + 1
  }

  /** The number of rows left, from `top` on. */
  function RowsFrom(g: Layout, top: int): nat
    requires g.StepY() > 0
  {
    if top > g.MaxTop() then 0 else FloorDiv(g.MaxTop() - top, g.StepY()) + 1
  }

  /** One step further along an axis leaves one fewer slot. */
  lemma StepCount(a: int, s: int)
    requires s > 0 && a >= 0
    ensures a - s >= 0 ==> FloorDiv(a - s, s) + 1 == FloorDiv(a, s)
    ensures a - s < 0 ==> FloorDiv(a, s) == 0
  {
    if a - s >= 0 {
      var q := FloorDiv(a - s, s);
      assert s * (q + 1) == s * q + s;
      FloorDivUnique(a, s, q + 1);
    } else {
      FloorDivUnique(a, s, 0);
    }
  }

  /** Each row taken leaves one fewer. */
  lemma RowsStep(g: Layout, top: int)
    requires g.StepY() > 0 && top <= g.MaxTop()
    ensures RowsFrom(g, top) == RowsFrom(g, top + g.StepY()) + 1
  {
    StepCount(g.MaxTop() - top, g.StepY());
  }

  lemma {:induction false} RowLength(g: Layout, left: int, top: int)
    requires g.StepX() > 0
    ensures |RowRects(g, left, top)| == ColsFrom(g, left)
    decreases g.MaxLeft() - left + g.StepX()
  {
    if left <= g.MaxLeft() {
      RowLength(g, left + g.StepX(), top);
      StepCount(g.MaxLeft() - left, g.StepX());
    }
  }

  /** The j-th slice of a row is j steps to the right of its first. */
  lemma {:induction false} RowAt(g: Layout, left: int, top: int, j: int)
    requires g.StepX() > 0
    requires 0 <= j < |RowRects(g, left, top)|
    ensures RowRects(g, left, top)[j] == Rect(left + j * g.StepX(), top, g.w, g.h)
    decreases j
  {
    if j > 0 {
      RowAt(g, left + g.StepX(), top, j - 1);
      assert left + g.StepX() + (j - 1) * g.StepX() == left + j * g.StepX();
    }
  }

  lemma {:induction false} GridLength(g: Layout, top: int)
    requires g.StepX() > 0 && g.StepY() > 0
    ensures |GridRects(g, top)| == RowsFrom(g, top) * g.Cols()
    decreases g.MaxTop() - top + g.StepY()
  {
    if top <= g.MaxTop() {
      RowLength(g, g.padx, top);
      GridLength(g, top + g.StepY());
      RowsStep(g, top);
      MulPred(RowsFrom(g, top), g.Cols());
    }
  }

  /** Row-major order: slice `i * Cols() + j` of the rows from `top` is in
      row i and column j. */
  lemma {:induction false} GridAt(g: Layout, top: int, i: int, j: int)
    requires g.StepX() > 0 && g.StepY() > 0
    requires 0 <= i < RowsFrom(g, top) && 0 <= j < g.Cols()
    ensures i * g.Cols() + j < |GridRects(g, top)|
    ensures GridRects(g, top)[i * g.Cols() + j] == Rect(g.padx + j * g.StepX(), top + i * g.StepY(), g.w, g.h)
    decreases i
  {
    var c := g.Cols();
    var k := i * c + j;
    GridLength(g, top);
    RowLength(g, g.padx, top);
    var row := RowRects(g, g.padx, top);
    var rest := GridRects(g, top + g.StepY());
    assert GridRects(g, top) == row + rest;
    IndexBounds(i, j, c, RowsFrom(g, top));
    if i == 0 {
      RowAt(g, g.padx, top, j);
    } else {
      StepCount(g.MaxTop() - top, g.StepY());
      GridAt(g, top + g.StepY(), i - 1, j);
      MulPred(i, g.StepY());
      ConcatIndex(row, rest, k);
    }
  }

  /** The arithmetic of a row-major index. */
  lemma IndexBounds(i: int, j: int, c: int, rows: int)
    requires 0 <= i < rows && 0 <= j < c
    ensures 0 <= i * c + j < rows * c
    ensures i == 0 ==> i * c + j == j
    ensures i > 0 ==> i * c + j - c == (i - 1) * c + j
  {
    MulMonotone(c, i + 1, rows);
    MulPred(i + 1, c);
    MulPred(i, c);
  }

  lemma MulPred(i: int, c: int)
    ensures i * c == (i - 1) * c + c
  {
  }

  lemma ConcatIndex<T>(a: seq<T>, b: seq<T>, k: int)
    requires |a| <= k < |a| + |b|
    ensures (a + b)[k] == b[k - |a|]
  {
  }

  /** The grid holds `Rows() * Cols()` slices. */
  lemma GridCount(g: Layout)
    requires g.StepX() > 0 && g.StepY() > 0
    ensures |GridSlices(g)| == g.Rows() * g.Cols()
  {
    GridLength(g, 0);
  }

  /** Slice `i * Cols() + j` sits at `(padx + j * (w + spacingx), i * (h + spacingy))`:
      rows start at the top edge, not at `pady`. */
  lemma GridOrder(g: Layout, i: int, j: int)
    requires g.StepX() > 0 && g.StepY() > 0
    requires 0 <= i < g.Rows() && 0 <= j < g.Cols()
    ensures i * g.Cols() + j < |GridSlices(g)|
    ensures GridSlices(g)[i * g.Cols() + j] == Rect(g.padx + j * (g.w + g.sx), i * (g.h + g.sy), g.w, g.h)
  {
    GridAt(g, 0, i, j);
  }

  /** The slices of a row lie within the horizontal padding. */
  lemma {:induction false} RowInside(g: Layout, left: int, top: int)
    requires g.StepX() > 0 || left > g.MaxLeft()
    requires left >= g.padx
    ensures forall r | r in RowRects(g, left, top) ::
              g.padx <= r.x && r.x + g.w <= g.imgW - g.padx && r.y == top && r.w == g.w && r.h == g.h
    decreases g.MaxLeft() - left + g.StepX()
  {
    if left <= g.MaxLeft() {
      RowInside(g, left + g.StepX(), top);
    }
  }

  lemma {:induction false} GridInside(g: Layout, top: int)
    requires g.StepY() > 0 || top > g.MaxTop()
    requires top > g.MaxTop() || g.StepX() > 0 || g.padx > g.MaxLeft()
    requires top >= 0
    ensures forall r | r in GridRects(g, top) ::
              g.padx <= r.x && r.x + g.w <= g.imgW - g.padx && 0 <= r.y && r.y + g.h <= g.imgH - g.pady
              && r.w == g.w && r.h == g.h
    decreases g.MaxTop() - top + g.StepY()
  {
    if top <= g.MaxTop() {
      RowInside(g, g.padx, top);
      GridInside(g, top + g.StepY());
    }
  }

  /** Every slice lies inside the image less its padding, on the right and at
      the bottom as well as on the left (the top padding is not applied). */
  lemma GridBounds(g: Layout)
    requires g.Terminates()
    ensures forall r | r in GridSlices(g) ::
              g.padx <= r.x && r.x + g.w <= g.imgW - g.padx && 0 <= r.y && r.y + g.h <= g.imgH - g.pady
              && r.w == g.w && r.h == g.h
  {
    GridInside(g, 0);
  }

  // ---------------------------------------------------------------------
  // Loading
  // ---------------------------------------------------------------------

  /** The three ways `_load_sprites` can fill the list. */
  datatype Branch = JsonFrames | GridWalk | FrameList

  /** Python truthiness of the optional JSON path. */
  predicate HasJson(json: Option<string>) {
    json.Some? && json.value != ""
  }

  /** The branch `_load_sprites` takes. The conditions short-circuit, so the
      config's framedata flag is read (KeyError when it is missing) only when
      there is a JSON path or a non-empty image path. */
  function SelectBranch(json: Option<string>, path: string, c: Config): (r: Result<Branch>)
    ensures r == Ok(JsonFrames) <==> HasJson(json) && FramedataKey in c && !IsTrue(c[FramedataKey])
    ensures r == Ok(GridWalk) <==> !HasJson(json) && path != "" && FramedataKey in c && !IsTrue(c[FramedataKey])
    ensures r.Err? <==> (HasJson(json) || path != "") && FramedataKey !in c
    ensures r.Err? ==> r.error == KeyError
  {
    if HasJson(json) then
      if FramedataKey !in c then Err(KeyError)
      else if !IsTrue(c[FramedataKey]) then Ok(JsonFrames)
      else Ok(FrameList)
    else if path == "" then Ok(FrameList)
    else if FramedataKey !in c then Err(KeyError)
    else if !IsTrue(c[FramedataKey]) then Ok(GridWalk)
    else Ok(FrameList)
  }

  /** The six keys the grid branch reads. */
  predicate HasGridKeys(c: Config) {
    PadXKey in c && PadYKey in c && SpacingXKey in c && SpacingYKey in c && WidthKey in c && HeightKey in c
  }

  /** The grid branch's reads of the config, for an image of the given size. */
  function GridOf(c: Config, imgW: int, imgH: int): (r: Result<Layout>)
    ensures r.Ok? <==> HasGridKeys(c)
    ensures r.Err? ==> r.error == KeyError
    ensures r.Ok? ==> r.value.imgW == imgW && r.value.imgH == imgH
  {
    if HasGridKeys(c) then
      Ok(Layout(imgW, imgH, AsInt(c[WidthKey]), AsInt(c[HeightKey]), AsInt(c[PadXKey]), AsInt(c[PadYKey]),
                AsInt(c[SpacingXKey]), AsInt(c[SpacingYKey])))
    else Err(KeyError)
  }

  /** The loops of the grid branch come to an end (when it is the branch taken). */
  predicate LoadTerminates(json: Option<string>, path: string, c: Config, imgW: int, imgH: int) {
    SelectBranch(json, path, c) == Ok(GridWalk) && GridOf(c, imgW, imgH).Ok? ==> GridOf(c, imgW, imgH).value.Terminates()
  }

  /** The sprite list `_load_sprites` builds, or the error it raises first. */
  function SpritesFor(json: Option<string>, path: string, c: Config, frames: seq<FrameEntry>,
                      framedata: seq<FrameEntry>, imgW: int, imgH: int): (r: Result<seq<Sprite>>)
    requires LoadTerminates(json, path, c, imgW, imgH)
  {
    match SelectBranch(json, path, c)
    case Err(e) => Err(e)
    case Ok(JsonFrames) => Ok(FromEntries(frames))
    case Ok(FrameList) => Ok(FromEntries(framedata))
    case Ok(GridWalk) =>
      match GridOf(c, imgW, imgH)
      case Err(e) => Err(e)
      case Ok(g) => Ok(Named(path, GridSlices(g)))
  }

  /** The tile counts written into the config after the sprites are built:
      `(size - spacing) // (tile + spacing)` on each axis. The horizontal count is
      stored before the vertical one is computed, so a failure in the second
      leaves the first in place. */
  function WithTiles(c: Config, imgW: int, imgH: int): (r: (Config, Outcome))
    ensures r.1.Pass? <==>
              && SpacingXKey in c && WidthKey in c && SpacingYKey in c && HeightKey in c
              && AsInt(c[WidthKey]) + AsInt(c[SpacingXKey]) != 0
              && AsInt(c[HeightKey]) + AsInt(c[SpacingYKey]) != 0
    ensures r.1.Pass? ==>
              var tx := FloorDiv(imgW - AsInt(c[SpacingXKey]), AsInt(c[WidthKey]) + AsInt(c[SpacingXKey]));
              var ty := FloorDiv(imgH - AsInt(c[SpacingYKey]), AsInt(c[HeightKey]) + AsInt(c[SpacingYKey]));
              r.0 == c[HorizontalTilesKey := Int(tx)][VerticalTilesKey := Int(ty)]
    ensures r.1.Fail? ==> r.1.error == KeyError || r.1.error == ZeroDivisionError
    ensures r.1.Fail? ==> r.0 == c || (r.0.Keys == c.Keys + {HorizontalTilesKey} && VerticalTilesKey !in r.0 - c.Keys)
    ensures forall k | k in c && k != HorizontalTilesKey && k != VerticalTilesKey :: k in r.0 && r.0[k] == c[k]
  {
    if SpacingXKey !in c || WidthKey !in c then (c, Fail(KeyError))
    else
      var tx := PyFloorDiv(imgW - AsInt(c[SpacingXKey]), AsInt(c[WidthKey]) + AsInt(c[SpacingXKey]));
      if tx.Err? then (c, Fail(tx.error))
      else
        var c1 := c[HorizontalTilesKey := Int(tx.value)];
        if SpacingYKey !in c1 || HeightKey !in c1 then (c1, Fail(KeyError))
        else
          var ty := PyFloorDiv(imgH - AsInt(c1[SpacingYKey]), AsInt(c1[HeightKey]) + AsInt(c1[SpacingYKey]));
          if ty.Err? then (c1, Fail(ty.error))
          else (c1[VerticalTilesKey := Int(ty.value)], Pass)
  }

  /** The tile counts ignore padding: with spacing the horizontal count can be
      smaller than the number of slices in a row. A 7-pixel-wide sheet of
      3-pixel tiles spaced by 1 has two slices per row (at 0 and 4), but
      `(7 - 1) // (3 + 1)` is 1. */
  lemma TilesUndercount()
    ensures var g := Layout(7, 3, 3, 3, 0, 0, 1, 0);
            g.Cols() == 2 && FloorDiv(g.imgW - g.sx, g.w + g.sx) == 1
  {
    var g := Layout(7, 3, 3, 3, 0, 0, 1, 0);
    FloorDivUnique(g.MaxLeft() - g.padx, g.StepX(), 1);
    FloorDivUnique(g.imgW - g.sx, g.w + g.sx, 1);
  }

  /** Without padding and spacing the tile counts are the grid's column and
      row counts. */
  lemma TilesMatchGrid(g: Layout)
    requires g.padx == 0 && g.pady == 0 && g.sx == 0 && g.sy == 0
    requires g.w > 0 && g.h > 0 && g.imgW >= 0 && g.imgH >= 0
    ensures g.Cols() == FloorDiv(g.imgW - g.sx, g.w + g.sx)
    ensures g.Rows() == FloorDiv(g.imgH - g.sy, g.h + g.sy)
  {
    if g.imgW - g.w >= 0 {
      StepCount(g.imgW, g.w);
    } else {
      FloorDivUnique(g.imgW, g.w, 0);
    }
    if g.imgH - g.h >= 0 {
      StepCount(g.imgH, g.h);
    } else {
      FloorDivUnique(g.imgH, g.h, 0);
    }
  }

  /** Loading again after a load builds the same list: the tile counts it
      wrote are keys neither the branch choice nor the grid reads. */
  lemma ReloadSame(json: Option<string>, path: string, c: Config, frames: seq<FrameEntry>,
                   framedata: seq<FrameEntry>, imgW: int, imgH: int)
    requires LoadTerminates(json, path, c, imgW, imgH)
    ensures LoadTerminates(json, path, WithTiles(c, imgW, imgH).0, imgW, imgH)
    ensures SpritesFor(json, path, WithTiles(c, imgW, imgH).0, frames, framedata, imgW, imgH)
            == SpritesFor(json, path, c, frames, framedata, imgW, imgH)
  {
    var c' := WithTiles(c, imgW, imgH).0;
    assert FramedataKey in c' <==> FramedataKey in c;
    assert HasGridKeys(c') <==> HasGridKeys(c);
    assert SelectBranch(json, path, c') == SelectBranch(json, path, c);
    assert GridOf(c', imgW, imgH) == GridOf(c, imgW, imgH);
  }

  /** A sprite sheet: the image it slices (only its size is modelled), its own
      copy of the config, and the sprites cut from it. */
  class SpriteSheet {
    var path: string
    /** `_json`: the JSON description's path, if any. */
    var json: Option<string>
    var config: Config
    /** `_frames`: the frames a JSON description lists. */
    var frames: seq<FrameEntry>
    const framedata: seq<FrameEntry>
    /** The loaded image's size. */
    const imageWidth: int
    const imageHeight: int
    var sprites: seq<Sprite>

    /** The fields `__init__` sets before it loads the sprites (the JSON
        path is handled by `NewSpriteSheet`). */
    constructor (path: string, config: Config, framedata: seq<FrameEntry>, imageWidth: int, imageHeight: int)
      ensures this.path == path && this.config == config && this.framedata == framedata
      ensures this.imageWidth == imageWidth && this.imageHeight == imageHeight
      ensures json == None && frames == [] && sprites == []
    {
      this.path := path;
      this.json := None;
      this.config := config;
      this.frames := [];
      this.framedata := framedata;
      this.imageWidth := imageWidth;
      this.imageHeight := imageHeight;
      this.sprites := [];
    }

    /** `_load_sprites`: clear the list, fill it from the branch selected, then
        write the tile counts into the config. */
    method LoadSprites() returns (r: Outcome)
      requires LoadTerminates(json, path, config, imageWidth, imageHeight)
      modifies `sprites, `config
      ensures var s := SpritesFor(json, path, old(config), frames, framedata, imageWidth, imageHeight);
              && (s.Err? ==> r == Fail(s.error) && sprites == [] && config == old(config))
              && (s.Ok? ==> sprites == s.value && (config, r) == WithTiles(old(config), imageWidth, imageHeight))
    {
      sprites := [];
      var b := SelectBranch(json, path, config);
      if b.Err? {
        return Fail(b.error);
      }
      match b.value {
        case JsonFrames =>
          AppendEntries(frames);
        case FrameList =>
          AppendEntries(framedata);
        case GridWalk =>
          var lay := GridOf(config, imageWidth, imageHeight);
          if lay.Err? {
            return Fail(lay.error);
          }
          WalkGrid(lay.value);
      }
      var t := WithTiles(config, imageWidth, imageHeight);
      config := t.0;
      r := t.1;
    }

    /** The `for` loops of the frame branches: one sprite per entry, in order. */
    method AppendEntries(entries: seq<FrameEntry>)
      modifies `sprites
      ensures sprites == old(sprites) + FromEntries(entries)
    {
      var i := 0;
      while i < |entries|
        invariant 0 <= i <= |entries|
        invariant sprites == old(sprites) + FromEntries(entries[..i])
      {
        var e := entries[i];
        sprites := sprites + [Sprite(e.name, Subsurface(e.rect), e.rect)];
        assert entries[..i + 1] == entries[..i] + [e];
        FromEntriesAppend(entries[..i], e);
        i := i + 1;
      }
      assert entries[..i] == entries;
    }

    /** The grid branch's outer loop, on an emptied list: row after row from
        the top edge, each row restarting at `padx`. */
    method WalkGrid(g: Layout)
      requires g.Terminates() && sprites == []
      modifies `sprites
      ensures sprites == Named(path, GridSlices(g))
    {
      var top := 0;
      ghost var done: seq<Rect> := [];
      while top <= g.imgH - g.pady - g.h
        invariant g.StepY() > 0 || top > g.MaxTop()
        invariant top > g.MaxTop() || g.StepX() > 0 || g.padx > g.MaxLeft()
        invariant done + GridRects(g, top) == GridSlices(g)
        invariant sprites == Named(path, done)
        decreases g.MaxTop() - top + g.StepY()
      {
        ghost var row := RowRects(g, g.padx, top);
        ghost var rest := GridRects(g, top + g.StepY());
        assert done + (row + rest) == (done + row) + rest;
        CutRow(g, top, done);
        done := done + row;
        top := top + (g.sy + g.h);
      }
    }

    /** The grid branch's inner loop: the slices of the row at `top`, left to
        right from `padx`, each named after the list's length less one. */
    method CutRow(g: Layout, top: int, ghost done: seq<Rect>)
      requires g.StepX() > 0 || g.padx > g.MaxLeft()
      requires sprites == Named(path, done)
      modifies `sprites
      ensures sprites == Named(path, done + RowRects(g, g.padx, top))
    {
      var left := g.padx;
      ghost var cut: seq<Rect> := [];
      while left <= g.imgW - g.padx - g.w
        invariant g.StepX() > 0 || left > g.MaxLeft()
        invariant cut + RowRects(g, left, top) == RowRects(g, g.padx, top)
        invariant sprites == Named(path, done + cut)
        decreases g.MaxLeft() - left + g.StepX()
      {
        var rect := Rect(left, top, g.w, g.h);
        CutSlice(rect, done + cut);
        assert RowRects(g, left, top) == [rect] + RowRects(g, left + g.StepX(), top);
        assert cut + ([rect] + RowRects(g, left + g.StepX(), top)) == (cut + [rect]) + RowRects(g, left + g.StepX(), top);
        assert done + cut + [rect] == done + (cut + [rect]);
        cut := cut + [rect];
        left := left + (g.sx + g.w);
      }
      assert cut == RowRects(g, g.padx, top);
    }

    /** The inner loop's body: cut the slice at `rect`, named after the list's
        length less one, and append it. */
    method CutSlice(rect: Rect, ghost done: seq<Rect>)
      requires sprites == Named(path, done)
      modifies `sprites
      ensures sprites == Named(path, done + [rect])
    {
      var name := SpriteName(path, |sprites| - 1);
      NamedAppend(path, done, rect);
      sprites := sprites + [Sprite(name, Subsurface(rect), rect)];
    }

    /** `gen_sprite_str_id(index)`: the sheet's path, the separator, then the
        index in decimal, which reads back as the index. */
    function GenSpriteStrId(index: int): (r: string)
      reads this
      ensures |r| > |path| + |Separator|
      ensures r[..|path|] == path && r[|path|..|path| + |Separator|] == Separator
      ensures var digits := r[|path| + |Separator|..];
                && (forall i | 0 <= i < |digits| :: IsDigit(digits[i]) || digits[i] == '-')
                && AllDigits(digits[1..]) && ParseInt(digits) == index
    {
      IntRoundTrip(index);
      var r := SpriteName(path, index);
      assert r[|path| + |Separator|..] == IntToString(index);
      r
    }

    /** `get_sprite_str_id(index)`: the name of the sprite at a Python index. */
    function GetSpriteStrId(index: int): (r: Result<string>)
      reads this
      ensures r.Ok? <==> -|sprites| <= index < |sprites|
      ensures r.Ok? ==> r.value == sprites[if index < 0 then index + |sprites| else index].name
      ensures r.Err? ==> r.error == IndexError
    {
      match PyIndex(sprites, index)
      case Ok(s) => Ok(s.name)
      case Err(e) => Err(e)
    }

    /** `__getitem__(key)`: the image of the sprite at a Python index. */
    function GetItem(key: int): (r: Result<Surface>)
      reads this
      ensures r.Ok? <==> -|sprites| <= key < |sprites|
      ensures r.Ok? ==> r.value == sprites[if key < 0 then key + |sprites| else key].image
      ensures r.Err? ==> r.error == IndexError
    {
      match PyIndex(sprites, key)
      case Ok(s) => Ok(s.image)
      case Err(e) => Err(e)
    }

    /** `__len__`: the number of sprites, which bounds the Python indices
        that `__getitem__` accepts. */
    function Len(): (r: nat)
      reads this
      ensures forall k: int :: GetItem(k).Ok? <==> -(r as int) <= k < r
    {
      |sprites|
    }
  }

  /** Appending a slice extends the named list by a sprite named after the
      list's length less one. */
  lemma NamedAppend(path: string, done: seq<Rect>, rect: Rect)
    ensures Named(path, done + [rect]) == Named(path, done) + [Sprite(SpriteName(path, |done| - 1), Subsurface(rect), rect)]
  {
  }

  /** Grid sprite k is named after k - 1 and cut at slice k, so every grid
      sprite's name splits back to the sheet's path. */
  lemma GridNames(path: string, g: Layout, k: int)
    requires g.Terminates()
    requires 0 <= k < |GridSlices(g)|
    ensures Named(path, GridSlices(g))[k] == Sprite(SpriteName(path, k - 1), Subsurface(GridSlices(g)[k]), GridSlices(g)[k])
  {
  }

  /** `SpriteSheet(path, config, framedata)`: a path ending in ".json" raises
      NameError, because the JSON reader's module is never imported; otherwise
      the sheet is built and loaded, and any error of the load is raised. */
  method NewSpriteSheet(path: string, config: Config, framedata: seq<FrameEntry>, imageWidth: int, imageHeight: int)
    returns (r: Result<SpriteSheet>)
    requires !EndsWith(path, ".json") ==> LoadTerminates(None, path, config, imageWidth, imageHeight)
    ensures EndsWith(path, ".json") ==> r == Err(NameError)
    ensures !EndsWith(path, ".json") ==>
              var s := SpritesFor(None, path, config, [], framedata, imageWidth, imageHeight);
              var t := WithTiles(config, imageWidth, imageHeight);
              && (r.Ok? <==> s.Ok? && t.1.Pass?)
              && (s.Err? ==> r == Err(s.error))
              && (s.Ok? && t.1.Fail? ==> r == Err(t.1.error))
              && (r.Ok? ==> fresh(r.value) && r.value.sprites == s.value && r.value.config == t.0
                            && r.value.path == path && r.value.framedata == framedata)
  {
    if EndsWith(path, ".json") {
      return Err(NameError);
    }
    var sheet := new SpriteSheet(path, config, framedata, imageWidth, imageHeight);
    var o := sheet.LoadSprites();
    if o.Fail? {
      return Err(o.error);
    }
    r := Ok(sheet);
  }

  /** A config dict owned by a caller. */
  class ConfigDict {
    var entries: Config

    constructor (entries: Config)
      ensures this.entries == entries
    {
      this.entries := entries;
    }
  }

  /** `load_spritesheet(image_path, config, framedata)`: the JSON path raises
      NameError before anything happens; otherwise a non-empty framedata list
      sets the framedata flag in the CALLER's dict, and the sheet is built from
      it. */
  method LoadSpritesheet(imagePath: string, config: ConfigDict, framedata: seq<FrameEntry>,
                         imageWidth: int, imageHeight: int)
    returns (r: Result<SpriteSheet>)
    requires !EndsWith(imagePath, ".json") && framedata == [] ==> LoadTerminates(None, imagePath, config.entries, imageWidth, imageHeight)
    modifies config
    ensures EndsWith(imagePath, ".json") ==> r == Err(NameError) && config.entries == old(config.entries)
    ensures !EndsWith(imagePath, ".json") ==>
              config.entries == if framedata != [] then old(config.entries)[FramedataKey := Bool(true)] else old(config.entries)
    ensures r.Ok? ==> fresh(r.value) && r.value.path == imagePath && r.value.framedata == framedata
    ensures r.Ok? && framedata != [] ==> r.value.sprites == FromEntries(framedata)
    ensures !EndsWith(imagePath, ".json") ==>
              var s := SpritesFor(None, imagePath, config.entries, [], framedata, imageWidth, imageHeight);
              var t := WithTiles(config.entries, imageWidth, imageHeight);
              && (r.Ok? <==> s.Ok? && t.1.Pass?)
              && (r.Ok? ==> r.value.sprites == s.value && r.value.config == t.0)
  {
    if EndsWith(imagePath, ".json") {
      return Err(NameError);
    }
    if framedata != [] {
      config.entries := config.entries[FramedataKey := Bool(true)];
      assert SelectBranch(None, imagePath, config.entries) == Ok(FrameList);
    }
    r := NewSpriteSheet(imagePath, config.entries, framedata, imageWidth, imageHeight);
  }
}

=== FILE: text.dfy ===
/** The string operations the engine uses to build and take apart names:
    `str(n)` for an int, `s.split(sep)` (its first and last fields) and
    `s.endswith(suffix)`. */
module Text {

  predicate IsDigit(c: char) {
    '0' <= c <= '9'
  }

  function DigitValue(c: char): (d: nat)
    requires IsDigit(c)
    ensures d < 10
  {
    (c as int) - ('0' as int)
  }

  function DigitChar(d: nat): (c: char)
    requires d < 10
    ensures IsDigit(c) && DigitValue(c) == d
  {
    (('0' as int) + d) as char
  }

  predicate AllDigits(s: string) {
    forall i :: 0 <= i < |s| ==> IsDigit(s[i])
  }

  /** `str(n)` for n >= 0: decimal digits, most significant first. */
  function NatToString(n: nat): (s: string)
    ensures |s| >= 1 && AllDigits(s)
  {
    if n < 10 then [DigitChar(n)] else NatToString(n / 10) + [DigitChar(n % 10)]
  }

  /** `str(n)`: a minus sign for negative numbers, then the digits. */
  function IntToString(n: int): (s: string)
    ensures |s| >= 1
    ensures forall i :: 0 <= i < |s| ==> IsDigit(s[i]) || s[i] == '-'
  {
    if n < 0 then "-" + NatToString(-n) else NatToString(n)
  }

  /** The value of a string of decimal digits. */
  function ParseNat(s: string): nat
    requires AllDigits(s)
  {
    if s == [] then 0 else ParseNat(s[..|s| - 1]) * 10 + DigitValue(s[|s| - 1])
  }

  /** `int(s)` for the strings `str` produces. */
  function ParseInt(s: string): int
    requires forall i :: 0 <= i < |s| ==> IsDigit(s[i]) || s[i] == '-'
    requires |s| >= 1 ==> AllDigits(s[1..])
  {
    if |s| >= 1 && s[0] == '-' then -(ParseNat(s[1..]) as int)
    else if |s| >= 1 then ParseNat(s)
    else 0
  }

  /** Reading back the digits of n gives n. */
  lemma {:induction false} NatRoundTrip(n: nat)
    ensures ParseNat(NatToString(n)) == n
  {
    if n >= 10 {
      var s := NatToString(n);
      assert s[..|s| - 1] == NatToString(n / 10);
      NatRoundTrip(n / 10);
    }
  }

  /** `int(str(n)) == n` for every int n. */
  lemma {:induction false} IntRoundTrip(n: int)
    ensures var s := IntToString(n); |s| >= 1 && AllDigits(s[1..]) && ParseInt(s) == n
  {
    var s := IntToString(n);
    if n < 0 {
      assert s[1..] == NatToString(-n);
      NatRoundTrip(-n);
    } else {
      assert IsDigit(s[0]);
      NatRoundTrip(n);
    }
  }

  /** Distinct ints are printed differently. */
  lemma IntToStringInjective(a: int, b: int)
    requires IntToString(a) == IntToString(b)
    ensures a == b
  {
    IntRoundTrip(a);
    IntRoundTrip(b);
  }

  /** sep occurs in s starting at position j. */
  predicate OccursAt(s: string, sep: string, j: int) {
    0 <= j && j + |sep| <= |s| && s[j..j + |sep|] == sep
  }

  /** sep cannot occur where s holds a character other than sep's first. */
  lemma NotOccursAt(s: string, sep: string, j: int)
    requires 0 <= j < |s| && |sep| > 0 && s[j] != sep[0]
    ensures !OccursAt(s, sep, j)
  {
    if j + |sep| <= |s| {
      assert s[j..j + |sep|][0] == s[j];
    }
  }

  /** The first position at or after `from` where `sep` occurs in s, or |s|
      when it does not occur there. */
  function IndexFrom(s: string, sep: string, from: nat): (i: nat)
    requires |sep| > 0 && from <= |s|
    ensures from <= i <= |s|
    ensures i < |s| ==> OccursAt(s, sep, i)
    ensures forall j :: from <= j < i ==> !OccursAt(s, sep, j)
    ensures i == |s| ==> forall j :: from <= j ==> !OccursAt(s, sep, j)
    decreases |s| - from
  {
    if from + |sep| > |s| then |s|
    else if s[from..from + |sep|] == sep then from
    else IndexFrom(s, sep, from + 1)
  }

  /** `s.split(sep)[0]`: everything before the first occurrence of sep. */
  function FirstField(s: string, sep: string): (r: string)
    requires |sep| > 0
    ensures |r| <= |s| && s[..|r|] == r
  {
    s[..IndexFrom(s, sep, 0)]
  }

  /** A separator occurrence at i with none before it is where the first
      field ends. */
  lemma FirstFieldAt(s: string, sep: string, i: nat)
    requires |sep| > 0 && OccursAt(s, sep, i)
    requires forall j :: 0 <= j < i ==> !OccursAt(s, sep, j)
    ensures FirstField(s, sep) == s[..i]
  {
  }

  /** `s.split(c)[-1]`: everything after the last occurrence of c, or all of s
      when c does not occur. */
  function LastField(s: string, c: char): (r: string)
    ensures |r| <= |s| && s[|s| - |r|..] == r
    ensures c !in r
    ensures |r| < |s| ==> s[|s| - |r| - 1] == c
  {
    if s == [] then []
    else if s[|s| - 1] == c then []
    else LastField(s[..|s| - 1], c) + [s[|s| - 1]]
  }

  /** The last field is determined by the text after the final separator. */
  lemma {:induction false} LastFieldAfterSeparator(a: string, c: char, e: string)
    requires c !in e
    ensures LastField(a + [c] + e, c) == e
    decreases |e|
  {
    var s := a + [c] + e;
    if e != [] {
      assert s[..|s| - 1] == a + [c] + e[..|e| - 1];
      LastFieldAfterSeparator(a, c, e[..|e| - 1]);
      assert e == e[..|e| - 1] + [e[|e| - 1]];
    }
  }

  /** Without the separator, the last field is the whole string. */
  lemma {:induction false} LastFieldWithoutSeparator(s: string, c: char)
    requires c !in s
    ensures LastField(s, c) == s
    decreases |s|
  {
    if s != [] {
      LastFieldWithoutSeparator(s[..|s| - 1], c);
      assert s == s[..|s| - 1] + [s[|s| - 1]];
    }
  }

  /** `s.endswith(suffix)` */
  predicate EndsWith(s: string, suffix: string) {
    |suffix| <= |s| && s[|s| - |suffix|..] == suffix
  }
}

=== FILE: texture.dfy ===
/** Textures and the class-level cache that memoises them by path. */
module Textures {
  import opened Prelude
  import opened Text

  /** The extensions a texture file may have. */
  predicate IsExtension(s: string) {
    s == "png" || s == "jpg" || s == "jpeg"
  }

  /** The check in `__create`: the text after the last "." (the whole path
      when there is none) must be one of the extensions, compared exactly. */
  predicate ValidExtension(path: string) {
    IsExtension(LastField(path, '.'))
  }

  /** A path passes exactly when it is an extension itself or ends in "." and
      an extension. */
  lemma ExtensionCheck(path: string)
    ensures ValidExtension(path) <==>
              IsExtension(path) || EndsWith(path, ".png") || EndsWith(path, ".jpg") || EndsWith(path, ".jpeg")
  {
    DottedForms();
    LastFieldIs(path, "png", ".png");
    LastFieldIs(path, "jpg", ".jpg");
    LastFieldIs(path, "jpeg", ".jpeg");
  }

  lemma DottedForms()
    ensures '.' !in "png" && ".png" == ['.'] + "png"
    ensures '.' !in "jpg" && ".jpg" == ['.'] + "jpg"
    ensures '.' !in "jpeg" && ".jpeg" == ['.'] + "jpeg"
  {
  }

  /** The text after the last "." is e (which holds no ".") exactly when the
      path is e or ends in "." and e. */
  lemma LastFieldIs(path: string, e: string, dotted: string)
    requires '.' !in e && dotted == ['.'] + e
    ensures LastField(path, '.') == e <==> path == e || EndsWith(path, dotted)
  {
    if LastField(path, '.') == e && |e| < |path| {
      var a := path[..|path| - |e| - 1];
      assert path == a + ['.'] + e;
    }
    if path == e {
      LastFieldWithoutSeparator(path, '.');
    }
    if EndsWith(path, ['.'] + e) {
      EndsWithExtension(path, e);
    }
  }

  lemma EndsWithExtension(path: string, e: string)
    requires '.' !in e && EndsWith(path, ['.'] + e)
    ensures LastField(path, '.') == e
  {
    var a := path[..|path| - |e| - 1];
    assert path == a + ['.'] + e;
    LastFieldAfterSeparator(a, '.', e);
  }

  /** The check is case-sensitive: an upper-case extension is refused. */
  lemma ExtensionCaseSensitive()
    ensures !ValidExtension("a.PNG")
  {
    LastFieldAfterSeparator("a", '.', "PNG");
    assert "a.PNG" == "a" + ['.'] + "PNG";
  }

  /** The part of the engine's context a texture touches: `ctx.stop()`
      raises a flag and returns. */
  class Context {
    var stopped: bool

    constructor ()
      ensures !stopped
    {
      stopped := false;
    }

    method Stop()
      modifies this
      ensures stopped
    {
      stopped := true;
    }
  }

  class Texture {
    /** `_path`: None for a texture made from a raw image. */
    const path: Option<string>
    /** Whether `clean` has released the GL texture. */
    var released: bool

    /** `Texture(path)`: an invalid extension asks the context to stop, and
        construction carries on regardless. Image loading and the GL texture
        are not modelled. */
    constructor (path: Option<string>, ctx: Context)
      modifies ctx
      ensures this.path == path && !released
      ensures ctx.stopped == (old(ctx.stopped) || (path.Some? && !ValidExtension(path.value)))
    {
      this.path := path;
      this.released := false;
      if path.Some? && !ValidExtension(path.value) {
        ctx.Stop();
      }
    }

    /** `clean()`: release the GL texture. */
    method Clean()
      modifies this
      ensures released
    {
      released := true;
    }
  }

  /** `Texture.CACHE`, the class attribute every `get_texture` call shares. */
  class TextureCache {
    var cache: map<string, Texture>

    /** Every texture is cached under its own path. */
    predicate Valid()
      reads this
    {
      forall p | p in cache :: cache[p].path == Some(p)
    }

    constructor ()
      ensures Valid() && cache == map[]
    {
      cache := map[];
    }

    /** `is_cached(texture)`: the texture, compared by identity, is one of the
        cache's values. */
    predicate IsCached(t: Texture)
      reads this
    {
      t in cache.Values
    }

    /** `__on_clean__`: release every cached texture. */
    method OnClean()
      modifies cache.Values
      ensures forall t | t in cache.Values :: t.released
    {
      var rest := cache.Values;
      while rest != {}
        invariant rest <= cache.Values
        invariant forall t | t in cache.Values - rest :: t.released
        decreases rest
      {
        var t :| t in rest;
        t.Clean();
        rest := rest - {t};
      }
    }

    /** `get_texture(path)`: a hit returns the cached texture and changes
        nothing; a miss builds a texture and adds exactly that path. */
    method GetTexture(path: string, ctx: Context) returns (t: Texture)
      requires Valid()
      modifies this, ctx
      ensures Valid()
      ensures path in cache && cache[path] == t && IsCached(t)
      ensures t.path == Some(path)
      ensures path in old(cache) ==> t == old(cache[path]) && cache == old(cache) && ctx.stopped == old(ctx.stopped)
      ensures path !in old(cache) ==> fresh(t) && cache == old(cache)[path := t]
      ensures path !in old(cache) ==> ctx.stopped == (old(ctx.stopped) || !ValidExtension(path))
    {
      if path in cache {
        t := cache[path];
        return;
      }
      t := new Texture(Some(path), ctx);
      cache := cache[path := t];
    }
  }

  /** Asking twice for the same path gives the same texture, and the second
      call leaves the cache as the first left it. */
  method GetTextureTwice(c: TextureCache, path: string, ctx: Context) returns (a: Texture, b: Texture)
    requires c.Valid()
    modifies c, ctx
    ensures a == b && c.IsCached(a)
  {
    a := c.GetTexture(path, ctx);
    b := c.GetTexture(path, ctx);
  }

  /** A texture built directly, not through `get_texture`, is not cached. */
  method DirectTextureNotCached(c: TextureCache, path: Option<string>, ctx: Context) returns (t: Texture)
    modifies ctx
    ensures !c.IsCached(t)
  {
    t := new Texture(path, ctx);
  }
}

=== FILE: vertices.dfy ===
/** Vertex expansion for indexed meshes: each index tuple is replaced by the
    vertices it names, and the rows are laid end to end. The cube's tables are
    constant data. */
module Vertices {
  import opened Prelude

  /** Every index of every tuple is a valid Python index into a list of n. */
  predicate AllIndicesIn(indices: seq<seq<int>>, n: nat) {
    forall tri | tri in indices :: forall i | i in tri :: InRange(n, i)
  }

  /** The triangle and range checks, index by index, in a form that computes
      on constant tables. */
  predicate TrianglesFrom(indices: seq<seq<int>>, n: nat, k: nat)
    decreases |indices| - k
  {
    k >= |indices| || (|indices[k]| == 3 && TupleFrom(indices[k], n, 0) && TrianglesFrom(indices, n, k + 1))
  }

  predicate TupleFrom(tri: seq<int>, n: nat, i: nat)
    decreases |tri| - i
  {
    i >= |tri| || (InRange(n, tri[i]) && TupleFrom(tri, n, i + 1))
  }

  lemma {:induction false} TupleFromSound(tri: seq<int>, n: nat, i: nat)
    requires TupleFrom(tri, n, i)
    ensures forall j | i <= j < |tri| :: InRange(n, tri[j])
    decreases |tri| - i
  {
    if i < |tri| {
      TupleFromSound(tri, n, i + 1);
    }
  }

  lemma {:induction false} TrianglesFromSound(indices: seq<seq<int>>, n: nat, k: nat)
    requires TrianglesFrom(indices, n, k)
    ensures forall t | k <= t < |indices| :: |indices[t]| == 3 && forall i | i in indices[t] :: InRange(n, i)
    decreases |indices| - k
  {
    if k < |indices| {
      TupleFromSound(indices[k], n, 0);
      TrianglesFromSound(indices, n, k + 1);
    }
  }

  /** A table that passes the checks holds triangles only, all of whose indices
      are in range. */
  lemma TrianglesChecked(indices: seq<seq<int>>, n: nat)
    requires TrianglesFrom(indices, n, 0)
    ensures AllIndicesIn(indices, n)
    ensures forall tri | tri in indices :: |tri| == 3
  {
    TrianglesFromSound(indices, n, 0);
    forall tri | tri in indices ensures |tri| == 3 && forall i | i in tri :: InRange(n, i) {
      var t :| 0 <= t < |indices| && indices[t] == tri;
    }
  }

  /** The number of indices over all tuples. */
  function TotalLength(indices: seq<seq<int>>): nat {
    if indices == [] then 0 else |indices[0]| + TotalLength(indices[1..])
  }

  /** The rows one tuple expands to. */
  function ExpandTuple<T>(vertices: seq<T>, tri: seq<int>): (r: Result<seq<T>>)
    ensures r.Ok? <==> forall i | i in tri :: InRange(|vertices|, i)
    ensures r.Err? ==> r.error == IndexError
    ensures r.Ok? ==> |r.value| == |tri|
    ensures r.Ok? ==> forall j | 0 <= j < |tri| :: r.value[j] == vertices[Normalize(|vertices|, tri[j])]
  {
    if tri == [] then Ok([])
    else
      match PyIndex(vertices, tri[0])
      case Err(e) => Err(e)
      case Ok(v) =>
        match ExpandTuple(vertices, tri[1..])
        case Err(e) => Err(e)
        case Ok(rest) =>
          assert forall i | i in tri :: i == tri[0] || i in tri[1..];
          Ok([v] + rest)
  }

  /** `generate_vertex_data(vertices, indices)`: the rows for every index of
      every tuple, in order. An index Python cannot use raises IndexError;
      negative indices count from the end. */
  function Expand<T>(vertices: seq<T>, indices: seq<seq<int>>): (r: Result<seq<T>>)
    ensures r.Ok? <==> AllIndicesIn(indices, |vertices|)
    ensures r.Err? ==> r.error == IndexError
    ensures r.Ok? ==> |r.value| == TotalLength(indices)
  {
    if indices == [] then Ok([])
    else
      match ExpandTuple(vertices, indices[0])
      case Err(e) =>
        assert indices[0] in indices;
        Err(e)
      case Ok(head) =>
        match Expand(vertices, indices[1..])
        case Err(e) =>
          assert forall tri | tri in indices[1..] :: tri in indices;
          Err(e)
        case Ok(rest) =>
          assert forall tri | tri in indices :: tri == indices[0] || tri in indices[1..];
          Ok(head + rest)
  }

  /** Expanding a concatenation of index lists concatenates the expansions; the
      first failure is the one reported. */
  lemma {:induction false} ExpandConcat<T>(vertices: seq<T>, a: seq<seq<int>>, b: seq<seq<int>>)
    ensures Expand(vertices, a + b) ==
              match Expand(vertices, a)
              case Err(e) => Err(e)
              case Ok(x) =>
                match Expand(vertices, b)
                case Err(e) => Err(e)
                case Ok(y) => Ok(x + y)
  {
    if a == [] {
      assert a + b == b;
      match Expand(vertices, b) {
        case Err(e) =>
        case Ok(y) => assert [] + y == y;
      }
    } else {
      assert (a + b)[0] == a[0];
      assert (a + b)[1..] == a[1..] + b;
      ExpandConcat(vertices, a[1..], b);
      match Expand(vertices, a[1..]) {
        case Err(e) =>
        case Ok(x) =>
          match Expand(vertices, b) {
            case Err(e) =>
            case Ok(y) =>
              match ExpandTuple(vertices, a[0]) {
                case Err(e) =>
                case Ok(h) => assert h + (x + y) == (h + x) + y;
              }
          }
      }
    }
  }

  /** When every tuple is a triangle there are three rows per triangle. */
  lemma {:induction false} TriangleCount(indices: seq<seq<int>>)
    requires forall tri | tri in indices :: |tri| == 3
    ensures TotalLength(indices) == 3 * |indices|
  {
    if indices != [] {
      assert indices[0] in indices;
      assert forall tri | tri in indices[1..] :: tri in indices;
      TriangleCount(indices[1..]);
    }
  }

  /** Row 3t + j of an expansion of triangles is the vertex named by index j of
      triangle t. */
  lemma {:induction false} ExpandRow<T>(vertices: seq<T>, indices: seq<seq<int>>, t: int, j: int)
    requires forall tri | tri in indices :: |tri| == 3
    requires AllIndicesIn(indices, |vertices|)
    requires 0 <= t < |indices| && 0 <= j < 3
    ensures indices[t] in indices && InRange(|vertices|, indices[t][j])
    ensures 3 * t + j < |Expand(vertices, indices).value|
    ensures Expand(vertices, indices).value[3 * t + j] == vertices[Normalize(|vertices|, indices[t][j])]
  {
    assert indices[t] in indices && indices[t][j] in indices[t];
    TriangleCount(indices);
    assert indices[0] in indices;
    var head := ExpandTuple(vertices, indices[0]).value;
    var rest := Expand(vertices, indices[1..]);
    assert forall tri | tri in indices[1..] :: tri in indices;
    assert Expand(vertices, indices).value == head + rest.value;
    if t > 0 {
      ExpandRow(vertices, indices[1..], t - 1, j);
      assert 3 * t + j - 3 == 3 * (t - 1) + j;
    }
  }

  /** Every row is one of the vertices. */
  lemma {:induction false} ExpandRowsAreVertices<T>(vertices: seq<T>, indices: seq<seq<int>>)
    requires Expand(vertices, indices).Ok?
    ensures forall v | v in Expand(vertices, indices).value :: v in vertices
  {
    if indices != [] {
      assert forall tri | tri in indices[1..] :: tri in indices;
      ExpandRowsAreVertices(vertices, indices[1..]);
      var head := ExpandTuple(vertices, indices[0]).value;
      forall v | v in head ensures v in vertices {
        var j :| 0 <= j < |head| && head[j] == v;
      }
    }
  }

  // ---------------------------------------------------------------------
  // The cube
  // ---------------------------------------------------------------------

  type Point = (real, real, real)
  type TexCoord = (real, real)

  /** `Cube.VERTICES`: the eight corners of the cube [-1, 1]³. */
  const CubeVertices: seq<Point> := [
    (1.0, 1.0, 1.0), (-1.0, 1.0, 1.0), (-1.0, -1.0, 1.0), (1.0, -1.0, 1.0),
    (1.0, 1.0, -1.0), (-1.0, 1.0, -1.0), (-1.0, -1.0, -1.0), (1.0, -1.0, -1.0)]

  /** `Cube.VERTEX_INDICES`: two triangles per face. */
  const CubeVertexIndices: seq<seq<int>> := [
    [0, 1, 2], [0, 2, 3], [4, 5, 6], [4, 6, 7], [4, 0, 3], [4, 3, 7],
    [1, 5, 6], [1, 6, 2], [3, 2, 6], [3, 6, 7], [4, 5, 1], [4, 1, 0]]

  /** `Cube.TEXCOORDS`, as the float32 values the array holds. */
  const CubeTexCoords: seq<TexCoord> := [(0.0, 0.0), (1.0, 0.0), (1.0, 1.0), (0.0, 1.0)]

  /** `Cube.TEXCOORD_INDICES`: the same two triangles of the unit square for
      every face. */
  const CubeTexCoordIndices: seq<seq<int>> := [
    [0, 1, 2], [0, 2, 3], [0, 1, 2], [0, 2, 3], [0, 1, 2], [0, 2, 3],
    [0, 1, 2], [0, 2, 3], [0, 1, 2], [0, 2, 3], [0, 1, 2], [0, 2, 3]]

  /** `Cube.get_cube_vert()` */
  function CubeVert(): Result<seq<Point>> {
    Expand(CubeVertices, CubeVertexIndices)
  }

  /** `Cube.get_cube_tex()` */
  function CubeTex(): Result<seq<TexCoord>> {
    Expand(CubeTexCoords, CubeTexCoordIndices)
  }

  predicate IsUnit(x: real) {
    x == 1.0 || x == -1.0
  }

  /** The vertex table is total: 36 rows, three per triangle, each of them a
      corner whose coordinates are all ±1. */
  lemma CubeVertRows()
    ensures CubeVert().Ok? && |CubeVert().value| == 36
    ensures forall p | p in CubeVert().value :: IsUnit(p.0) && IsUnit(p.1) && IsUnit(p.2)
  {
    VertexTableChecked();
    CornersAreUnit();
    TriangleCount(CubeVertexIndices);
    ExpandRowsAreVertices(CubeVertices, CubeVertexIndices);
  }

  /** The texture table is total too and has as many rows as the vertex table,
      so the two line up row for row; each row is a corner of the unit square. */
  lemma CubeTexRows()
    ensures CubeTex().Ok? && CubeVert().Ok? && |CubeTex().value| == |CubeVert().value| == 36
    ensures forall p | p in CubeTex().value :: p in CubeTexCoords
  {
    CubeVertRows();
    TexTableChecked();
    TriangleCount(CubeTexCoordIndices);
    ExpandRowsAreVertices(CubeTexCoords, CubeTexCoordIndices);
  }

  lemma VertexTableChecked()
    ensures AllIndicesIn(CubeVertexIndices, |CubeVertices|)
    ensures forall tri | tri in CubeVertexIndices :: |tri| == 3
    ensures |CubeVertexIndices| == 12
  {
    assert TrianglesFrom(CubeVertexIndices, 8, 0);
    TrianglesChecked(CubeVertexIndices, 8);
  }

  lemma TexTableChecked()
    ensures AllIndicesIn(CubeTexCoordIndices, |CubeTexCoords|)
    ensures forall tri | tri in CubeTexCoordIndices :: |tri| == 3
    ensures |CubeTexCoordIndices| == 12
  {
    assert TrianglesFrom(CubeTexCoordIndices, 4, 0);
    TrianglesChecked(CubeTexCoordIndices, 4);
  }

  lemma CornersAreUnit()
    ensures forall p | p in CubeVertices :: IsUnit(p.0) && IsUnit(p.1) && IsUnit(p.2)
  {
  }
}

=== FILE: world.dfy ===
/** The spatial world: a `World2D` holds layers by z-level, a layer holds
    chunks, a chunk holds entities. Removals go through "delta" queues that
    are drained after each update pass; as the engine writes them, draining a
    queue calls the matching `add_*`, so queued objects are re-added, not
    deleted. */
module World {
  import opened Prelude
  import opened Dicts
  import opened Text
  import opened Coords
  import opened Entities

  // ---------------------------------------------------------------------
  // Chunk ids
  // ---------------------------------------------------------------------

  /** `Chunk.get_id((x, y))`: the string `"x||y"`. */
  function ChunkId(pos: ChunkPos): (s: string)
    ensures |s| >= 4
  {
    IntToString(pos.0) + "||" + IntToString(pos.1)
  }

  /** The text `str` produces for an int. */
  predicate IntText(t: string) {
    && |t| >= 1
    && (forall i :: 0 <= i < |t| ==> IsDigit(t[i]) || t[i] == '-')
    && AllDigits(t[1..])
  }

  /** Reads a chunk id back: the int before the first `"||"` and the int after
      the last `'|'`. */
  function ParseChunkId(s: string): Option<ChunkPos> {
    var a := FirstField(s, "||");
    var b := LastField(s, '|');
    if IntText(a) && IntText(b) then Some((ParseInt(a), ParseInt(b))) else None
  }

  /** Chunk ids can be read back: `ParseChunkId` is a left inverse of `ChunkId`. */
  lemma ChunkIdRoundTrip(p: ChunkPos)
    ensures ParseChunkId(ChunkId(p)) == Some(p)
  {
    var a := IntToString(p.0);
    var b := IntToString(p.1);
    var s := ChunkId(p);
    IntRoundTrip(p.0);
    IntRoundTrip(p.1);
    assert OccursAt(s, "||", |a|) by {
      assert s[|a|..|a| + 2] == "||";
    }
    forall j | 0 <= j < |a|
      ensures !OccursAt(s, "||", j)
    {
      assert s[j] == a[j];
      NotOccursAt(s, "||", j);
    }
    FirstFieldAt(s, "||", |a|);
    assert FirstField(s, "||") == a by {
      assert s[..|a|] == a;
    }
    assert s == (a + "|") + ['|'] + b;
    assert '|' !in b;
    LastFieldAfterSeparator(a + "|", '|', b);
  }

  /** Distinct chunk coordinates get distinct ids. */
  lemma ChunkIdInjective(p: ChunkPos, q: ChunkPos)
    requires ChunkId(p) == ChunkId(q)
    ensures p == q
  {
    ChunkIdRoundTrip(p);
    ChunkIdRoundTrip(q);
  }

  // ---------------------------------------------------------------------
  // Chunk
  // ---------------------------------------------------------------------

  class Chunk {
    const position: ChunkPos
    /** `_chunk_id` */
    const chunkId: string
    /** `_layer`, set when a layer adds the chunk. */
    var layer: Layer?
    /** `_entities`, keyed by the entity's identity. */
    var entities: Dict<Entity, Entity>
    var deltaEntities: seq<Entity>

    /** The entity dict is a well-formed dict holding each entity under itself. */
    ghost predicate Valid()
      reads `entities
    {
      Dicts.Valid(entities) && KeyedBy(entities, Self)
    }

    constructor (position: ChunkPos)
      ensures this.position == position && chunkId == ChunkId(position)
      ensures layer == null && entities == Empty() && deltaEntities == []
      ensures Valid()
    {
      this.position := position;
      chunkId := ChunkId(position);
      layer := null;
      entities := Empty();
      deltaEntities := [];
    }

    /** `self._entities[id(entity)] = entity` */
    method AddEntity(e: Entity)
      modifies `entities
      ensures old(Valid()) ==> Valid()
      ensures entities == Put(old(entities), e, e)
      ensures Get(entities, e) == Some(e)
    {
      entities := Put(entities, e, e);
    }

    /** `remove_entity` only queues the entity. */
    method RemoveEntity(e: Entity)
      modifies `deltaEntities
      ensures deltaEntities == old(deltaEntities) + [e]
    {
      deltaEntities := deltaEntities + [e];
    }

    /** `update`: drain the queue through `add_entity`, then clear it. */
    method Update()
      modifies `entities, `deltaEntities
      ensures old(Valid()) ==> Valid()
      ensures entities == PutEach(old(entities), old(deltaEntities), Self)
      ensures deltaEntities == []
    {
      var queue := deltaEntities;
      var i := 0;
      while i < |queue|
        invariant 0 <= i <= |queue|
        invariant entities == PutEach(old(entities), queue[..i], Self)
      {
        PutEachStep(old(entities), queue, i, Self);
        AddEntity(queue[i]);
        i := i + 1;
      }
      assert queue[..|queue|] == queue;
      deltaEntities := [];
    }
  }

  /** One more step of a drain loop: flushing the first i + 1 queued values is
      flushing the first i, then storing value i. */
  lemma PutEachStep<K, V>(d: Dict<K, V>, q: seq<V>, i: nat, key: V -> K)
    requires i < |q|
    ensures PutEach(d, q[..i + 1], key) == Put(PutEach(d, q[..i], key), key(q[i]), q[i])
  {
    PutEachAppend(d, q[..i], [q[i]], key);
    assert q[..i] + [q[i]] == q[..i + 1];
  }

  /** Draining an entity queue re-adds every queued entity under itself, and
      leaves every other entry as it was: a "removed" entity is still there. */
  lemma FlushReAddsEntities(d: Dict<Entity, Entity>, q: seq<Entity>)
    ensures forall e | e in q :: Get(PutEach(d, q, Self), e) == Some(e)
    ensures forall e | e !in q :: Get(PutEach(d, q, Self), e) == Get(d, e)
  {
    PutEachStores(d, q, Self);
  }

  // ---------------------------------------------------------------------
  // Layer
  // ---------------------------------------------------------------------

  /** A layer's chunk dict is written under `id(chunk)` but read under
      `Chunk.get_id(position)`; the two kinds of key never coincide. */
  datatype ChunkKey = ObjectKey(chunk: Chunk) | NameKey(name: string)

  function ObjectKeyOf(c: Chunk): ChunkKey {
    ObjectKey(c)
  }

  /** The chunk's entity dict after its `update`. */
  ghost predicate Flushed(c: Chunk, entities: Dict<Entity, Entity>, delta: seq<Entity>)
    reads c`entities, c`deltaEntities
  {
    c.entities == PutEach(entities, delta, Self) && c.deltaEntities == []
  }

  /** Between the previous state and this one, every layer of ls drained its
      chunk queue and every chunk of cs its entity queue. */
  twostate predicate LayersDrained(ls: set<Layer>, cs: set<Chunk>)
    reads ls`chunks, ls`deltaChunks, cs`entities, cs`deltaEntities
  {
    && (forall l | l in ls :: LayerFlushed(l, old(l.chunks), old(l.deltaChunks)))
    && (forall c | c in cs :: Flushed(c, old(c.entities), old(c.deltaEntities)))
  }

  /** Between the previous state and this one, every chunk of qs that a layer
      of vs had queued was linked to the last layer in vs that queued it. */
  twostate predicate LayersLinked(vs: seq<Layer>, qs: set<Chunk>)
    reads qs`layer
  {
    forall j, c | 0 <= j < |vs| && c in qs && c in old(vs[j].deltaChunks) && (forall k | j < k < |vs| :: c !in old(vs[k].deltaChunks)) ::
      c.layer == vs[j]
  }

  /** Between the previous state and this one, e was queued for removal from
      chunk from and stored in chunk to, and no other chunk of cs changed. */
  twostate predicate Relocated(e: Entity, from: Chunk, to: Chunk, cs: set<Chunk>)
    reads from`deltaEntities, to`entities, cs`entities, cs`deltaEntities
  {
    && from.deltaEntities == old(from.deltaEntities) + [e]
    && to.entities == Put(old(to.entities), e, e)
    && (forall c | c in cs && c != from :: c.deltaEntities == old(c.deltaEntities))
    && (forall c | c in cs && c != to :: c.entities == old(c.entities))
  }

  /** The layer's chunk dict after its `update`. */
  ghost predicate LayerFlushed(l: Layer, chunks: Dict<ChunkKey, Chunk>, delta: seq<Chunk>)
    reads l`chunks, l`deltaChunks
  {
    l.chunks == PutEach(chunks, delta, ObjectKeyOf) && l.deltaChunks == [] && Dicts.Valid(l.chunks)
  }

  class Layer {
    const zlevel: int
    /** `_chunks` */
    var chunks: Dict<ChunkKey, Chunk>
    var deltaChunks: seq<Chunk>
    /** `_world`: never assigned by the world. */
    var world: object?

    ghost predicate Valid()
      reads this
    {
      Dicts.Valid(chunks)
    }

    /** Every chunk is stored under its own identity, as `add_chunk` stores it. */
    predicate KeyedByObject()
      reads this
    {
      KeyedBy(chunks, ObjectKeyOf)
    }

    /** `Layer(zlevel)`; the optional framebuffer is not modelled. */
    constructor (zlevel: int)
      ensures this.zlevel == zlevel && chunks == Empty() && deltaChunks == [] && world == null
      ensures Valid() && KeyedByObject()
    {
      this.zlevel := zlevel;
      chunks := Empty();
      deltaChunks := [];
      world := null;
    }

    /** `add_chunk`: store under `id(chunk)` and link the chunk back. */
    method AddChunk(c: Chunk)
      modifies `chunks, c`layer
      ensures old(Valid()) ==> Valid()
      ensures old(KeyedByObject()) ==> KeyedByObject()
      ensures chunks == Put(old(chunks), ObjectKey(c), c)
      ensures c.layer == this
    {
      chunks := Put(chunks, ObjectKey(c), c);
      c.layer := this;
    }

    /** `remove_chunk` only queues the chunk. */
    method RemoveChunk(c: Chunk)
      modifies `deltaChunks
      ensures deltaChunks == old(deltaChunks) + [c]
    {
      deltaChunks := deltaChunks + [c];
    }

    /** `get_chunk(position)`: look up `Chunk.get_id(position)`. */
    function GetChunk(pos: ChunkPos): (r: Option<Chunk>)
      reads this
      ensures r.Some? ==> r.value in chunks.items.Values
    {
      Get(chunks, NameKey(ChunkId(pos)))
    }

    /** `update`: update every chunk in dict order, then drain the chunk queue
        through `add_chunk` and clear it. */
    method Update()
      requires Valid()
      modifies `chunks, `deltaChunks, chunks.items.Values`entities, chunks.items.Values`deltaEntities, deltaChunks`layer
      ensures Valid()
      ensures old(KeyedByObject()) ==> KeyedByObject()
      ensures chunks == PutEach(old(chunks), old(deltaChunks), ObjectKeyOf)
      ensures deltaChunks == []
      ensures forall c | c in old(chunks.items.Values) :: Flushed(c, old(c.entities), old(c.deltaEntities))
      ensures forall c | c in old(chunks.items.Values) && old(c.Valid()) :: c.Valid()
      ensures forall c | c in old(deltaChunks) :: c.layer == this
    {
      UpdateChunks();
      FlushChunks();
    }

    /** The first half of `update`: each chunk's own `update`, in dict order.
        A chunk stored twice is drained on its first visit and left as it is on
        the second. */
    method UpdateChunks()
      requires Valid()
      modifies chunks.items.Values`entities, chunks.items.Values`deltaEntities
      ensures forall c | c in old(chunks.items.Values) :: Flushed(c, old(c.entities), old(c.deltaEntities))
      ensures forall c | c in old(chunks.items.Values) && old(c.Valid()) :: c.Valid()
    {
      var vs := Values(chunks);
      forall c | c in chunks.items.Values ensures c in vs {
        ValuesAreStored(chunks, c);
      }
      forall j | 0 <= j < |vs| ensures vs[j] in chunks.items.Values {
        assert chunks.keys[j] in chunks.items;
      }
      UpdateEachChunk(vs);
    }

    /** The second half of `update`: drain the chunk queue. */
    method FlushChunks()
      requires Valid()
      modifies `chunks, `deltaChunks, deltaChunks`layer
      ensures Valid()
      ensures old(KeyedByObject()) ==> KeyedByObject()
      ensures chunks == PutEach(old(chunks), old(deltaChunks), ObjectKeyOf)
      ensures deltaChunks == []
      ensures forall c | c in old(deltaChunks) :: c.layer == this
    {
      var queue := deltaChunks;
      var i := 0;
      while i < |queue|
        invariant 0 <= i <= |queue|
        invariant deltaChunks == queue
        invariant chunks == PutEach(old(chunks), queue[..i], ObjectKeyOf)
        invariant forall c | c in queue[..i] :: c.layer == this
      {
        FlushChunkAt(old(chunks), queue, i);
        i := i + 1;
      }
      assert queue[..|queue|] == queue;
      deltaChunks := [];
    }

    /** One round of the chunk drain: `add_chunk` on the i-th queued chunk,
        after the first i have been added. */
    method FlushChunkAt(ghost d: Dict<ChunkKey, Chunk>, queue: seq<Chunk>, i: nat)
      requires i < |queue| && Valid()
      requires chunks == PutEach(d, queue[..i], ObjectKeyOf)
      requires forall c | c in queue[..i] :: c.layer == this
      modifies `chunks, queue[i..i + 1]`layer
      ensures Valid()
      ensures chunks == PutEach(d, queue[..i + 1], ObjectKeyOf)
      ensures forall c | c in queue[..i + 1] :: c.layer == this
    {
      PutEachStep(d, queue, i, ObjectKeyOf);
      AddChunk(queue[i]);
      assert forall x | x in queue[..i + 1] :: x in queue[..i] || x == queue[i];
    }
  }

  /** A layer's chunk loop: each chunk's `update`, in the order of vs. A chunk
      listed twice is drained on its first visit and left as it is on the
      second. */
  method UpdateEachChunk(vs: seq<Chunk>)
    modifies vs`entities, vs`deltaEntities
    ensures forall c | c in vs :: Flushed(c, old(c.entities), old(c.deltaEntities))
    ensures forall c | c in vs && old(c.Valid()) :: c.Valid()
  {
    var i := 0;
    while i < |vs|
      invariant 0 <= i <= |vs|
      invariant forall c | c in vs[..i] :: Flushed(c, old(c.entities), old(c.deltaEntities))
      invariant forall c | c in vs[..i] && old(c.Valid()) :: c.Valid()
      invariant forall c | c in vs && c !in vs[..i] :: c.entities == old(c.entities) && c.deltaEntities == old(c.deltaEntities)
    {
      var c := vs[i];
      c.Update();
      assert vs[..i + 1] == vs[..i] + [c];
      i := i + 1;
    }
    assert vs[..|vs|] == vs;
  }

  /** Chunks that reached the layer through `add_chunk` can never be found by
      `get_chunk`: the lookup key is a string, the stored keys are identities. */
  lemma GetChunkNeverFindsAdded(l: Layer, pos: ChunkPos)
    requires l.KeyedByObject()
    ensures l.GetChunk(pos) == None
  {
  }

  /** Draining a chunk queue re-adds every queued chunk under its identity and
      leaves every other entry as it was. */
  lemma FlushReAddsChunks(d: Dict<ChunkKey, Chunk>, q: seq<Chunk>)
    ensures forall c | c in q :: Get(PutEach(d, q, ObjectKeyOf), ObjectKey(c)) == Some(c)
    ensures forall k | (forall c | c in q :: k != ObjectKey(c)) :: Get(PutEach(d, q, ObjectKeyOf), k) == Get(d, k)
  {
    PutEachStores(d, q, ObjectKeyOf);
    var r := PutEach(d, q, ObjectKeyOf);
    forall c | c in q ensures Get(r, ObjectKey(c)) == Some(c) {
      assert ObjectKeyOf(r.items[ObjectKeyOf(c)]) == ObjectKeyOf(c);
    }
  }

  // ---------------------------------------------------------------------
  // World
  // ---------------------------------------------------------------------

  function ZOf(l: Layer): int {
    l.zlevel
  }

  /** The first queued entity whose class has no `__post_init__`, or |q|. */
  function FirstWithoutHook(q: seq<Entity>): (n: nat)
    ensures n <= |q|
    ensures forall j | 0 <= j < n :: q[j].hasPostInitHook
    ensures n < |q| ==> !q[n].hasPostInitHook
  {
    if q == [] then 0
    else if !q[0].hasPostInitHook then 0
    else 1 + FirstWithoutHook(q[1..])
  }

  /** How much of the entity queue q a drain gets through: everything, or up
      to and including the first entity without `__post_init__`. */
  function Drained(q: seq<Entity>): (n: nat)
    ensures n <= |q|
    ensures FirstWithoutHook(q) < |q| ==> n == FirstWithoutHook(q) + 1
    ensures FirstWithoutHook(q) == |q| ==> n == |q|
  {
    if FirstWithoutHook(q) < |q| then FirstWithoutHook(q) + 1 else |q|
  }

  /** A layer's `update`, seen from the world: the layer's chunk queue is
      drained into its chunk dict, and every stored chunk's entity queue into
      that chunk's entity dict. */
  method UpdateOne(l: Layer)
    requires l.Valid()
    modifies l`chunks, l`deltaChunks, l.chunks.items.Values`entities, l.chunks.items.Values`deltaEntities, l.deltaChunks`layer
    ensures LayerFlushed(l, old(l.chunks), old(l.deltaChunks))
    ensures forall c | c in old(l.chunks.items.Values) :: Flushed(c, old(c.entities), old(c.deltaEntities))
    ensures forall c | c in old(l.deltaChunks) :: c.layer == l
  {
    l.Update();
  }

  /** A chunk is either untouched since (entities, delta) or drained from it. */
  ghost predicate UntouchedOrFlushed(c: Chunk, entities: Dict<Entity, Entity>, delta: seq<Entity>)
    reads c`entities, c`deltaEntities
  {
    (c.entities == entities && c.deltaEntities == delta) || Flushed(c, entities, delta)
  }

  /** The world's layer loop: each layer's `update`, in the order of vs. The
      layers are distinct objects, so updating one leaves the others' chunk
      dicts alone; a chunk stored in two layers is drained by the first and
      left as it is by the second. */
  method UpdateEach(vs: seq<Layer>, ghost stored: set<Chunk>, ghost queued: set<Chunk>)
    requires forall j, k | 0 <= j < k < |vs| :: vs[j] != vs[k]
    requires forall j | 0 <= j < |vs| :: vs[j].Valid()
    requires forall j, c | 0 <= j < |vs| && c in vs[j].chunks.items.Values :: c in stored
    requires forall j, c | 0 <= j < |vs| && c in vs[j].deltaChunks :: c in queued
    modifies vs`chunks, vs`deltaChunks, stored`entities, stored`deltaEntities, queued`layer
    ensures forall j | 0 <= j < |vs| :: LayerFlushed(vs[j], old(vs[j].chunks), old(vs[j].deltaChunks))
    ensures forall j, c | 0 <= j < |vs| && c in old(vs[j].chunks.items.Values) :: Flushed(c, old(c.entities), old(c.deltaEntities))
    ensures LayersLinked(vs, queued)
  {
    ghost var es := map c | c in stored :: c.entities;
    ghost var ds := map c | c in stored :: c.deltaEntities;
    ghost var dicts := seq(|vs|, j requires 0 <= j < |vs| reads vs => vs[j].chunks);
    ghost var queues := seq(|vs|, j requires 0 <= j < |vs| reads vs => vs[j].deltaChunks);
    ghost var done := UpdateLoop(vs, stored, queued, es, ds, dicts, queues);
  }

  /** The layer loop of `UpdateEach`, against the snapshots it takes. */
  method UpdateLoop(vs: seq<Layer>, ghost stored: set<Chunk>, ghost queued: set<Chunk>,
                    ghost es: map<Chunk, Dict<Entity, Entity>>, ghost ds: map<Chunk, seq<Entity>>,
                    ghost dicts: seq<Dict<ChunkKey, Chunk>>, ghost queues: seq<seq<Chunk>>) returns (ghost done: set<Chunk>)
    requires LayersUpdated(vs, 0, stored, queued, es, ds, dicts, queues, {})
    requires forall j | 0 <= j < |vs| :: queues[j] == vs[j].deltaChunks
    modifies vs`chunks, vs`deltaChunks, stored`entities, stored`deltaEntities, queued`layer
    ensures LayersUpdated(vs, |vs|, stored, queued, es, ds, dicts, queues, done)
    ensures LayersLinked(vs, queued)
  {
    done := {};
    var i := 0;
    while i < |vs|
      invariant 0 <= i <= |vs|
      invariant LayersUpdated(vs, i, stored, queued, es, ds, dicts, queues, done)
      invariant LinkedUpTo(vs, i, queued, queues)
    {
      UpdateAt(vs, i, stored, queued, es, ds, dicts, queues, done);
      done := done + dicts[i].items.Values;
      i := i + 1;
    }
    forall j, c | 0 <= j < |vs| && c in queued && c in old(vs[j].deltaChunks) && (forall k | j < k < |vs| :: c !in old(vs[k].deltaChunks))
      ensures c.layer == vs[j]
    {
      assert c in queues[j] && forall k | j < k < |vs| :: c !in queues[k];
    }
  }

  /** The state of the layer loop after i rounds, against the snapshots
      taken before it: chunk dicts and queues (dicts, queues) per layer, and
      entity dicts and queues (es, ds) per chunk. The first i layers are
      drained, the rest untouched; every chunk of the first i layers is in
      done and drained; every other chunk is untouched or drained. */
  ghost predicate LayersUpdated(vs: seq<Layer>, i: nat, cs: set<Chunk>, queued: set<Chunk>,
                                es: map<Chunk, Dict<Entity, Entity>>, ds: map<Chunk, seq<Entity>>,
                                dicts: seq<Dict<ChunkKey, Chunk>>, queues: seq<seq<Chunk>>, done: set<Chunk>)
    reads vs, cs
  {
    && i <= |vs| && |dicts| == |vs| && |queues| == |vs|
    && (forall j, k | 0 <= j < k < |vs| :: vs[j] != vs[k])
    && (forall j | 0 <= j < i :: LayerFlushed(vs[j], dicts[j], queues[j]))
    && (forall j | i <= j < |vs| :: vs[j].chunks == dicts[j] && vs[j].deltaChunks == queues[j] && vs[j].Valid())
    && (forall j, c | 0 <= j < |vs| && c in dicts[j].items.Values :: c in cs)
    && (forall j, c | 0 <= j < |vs| && c in queues[j] :: c in queued)
    && (forall j, c | 0 <= j < i && c in dicts[j].items.Values :: c in done)
    && (forall c | c in cs :: c in es && c in ds && UntouchedOrFlushed(c, es[c], ds[c]))
    && (forall c | c in done :: c in cs && c in es && c in ds && Flushed(c, es[c], ds[c]))
  }

  /** After i rounds of the layer loop, a chunk queued on one of the first i
      layers is linked to the last of them that queued it. */
  ghost predicate LinkedUpTo(vs: seq<Layer>, i: nat, queued: set<Chunk>, queues: seq<seq<Chunk>>)
    reads queued
  {
    && i <= |vs| && i <= |queues|
    && forall j, c | 0 <= j < i && c in queues[j] && c in queued && (forall k | j < k < i :: c !in queues[k]) :: c.layer == vs[j]
  }

  /** One round of the layer loop: the i-th layer's `update`. */
  method UpdateAt(vs: seq<Layer>, i: nat, ghost cs: set<Chunk>, ghost queued: set<Chunk>,
                  ghost es: map<Chunk, Dict<Entity, Entity>>, ghost ds: map<Chunk, seq<Entity>>,
                  ghost dicts: seq<Dict<ChunkKey, Chunk>>, ghost queues: seq<seq<Chunk>>, ghost done: set<Chunk>)
    requires i < |vs|
    requires LayersUpdated(vs, i, cs, queued, es, ds, dicts, queues, done)
    requires LinkedUpTo(vs, i, queued, queues)
    modifies vs[i..i + 1]`chunks, vs[i..i + 1]`deltaChunks, cs`entities, cs`deltaEntities, queued`layer
    ensures LayersUpdated(vs, i + 1, cs, queued, es, ds, dicts, queues, done + dicts[i].items.Values)
    ensures LinkedUpTo(vs, i + 1, queued, queues)
  {
    UpdateOne(vs[i]);
    forall c | c in cs
      ensures UntouchedOrFlushed(c, es[c], ds[c])
      ensures c in done + dicts[i].items.Values ==> Flushed(c, es[c], ds[c])
    {
      if c in dicts[i].items.Values {
        assert Flushed(c, old(c.entities), old(c.deltaEntities));
        if old(Flushed(c, es[c], ds[c])) {
          assert old(c.deltaEntities) == [];
        }
      }
    }
  }

  class World2D {
    const name: string
    /** `DEFAULT_CHUNK_PIXEL_WIDTH` / `_HEIGHT` of the engine's context. */
    const chunkWidth: int
    const chunkHeight: int
    /** `_layers`, keyed by z-level. */
    var layers: Dict<int, Layer>
    var deltaLayers: seq<Layer>
    /** `_entities`, keyed by the entity's identity. */
    var entities: Dict<Entity, Entity>
    var deltaEntities: seq<Entity>

    ghost predicate Valid()
      reads this
    {
      && chunkWidth > 0 && chunkHeight > 0
      && Dicts.Valid(layers) && KeyedBy(layers, ZOf)
      && Dicts.Valid(entities) && KeyedBy(entities, Self)
    }

    /** Every layer's chunk dict is well formed. */
    ghost predicate LayersValid()
      reads this, layers.items.Values
    {
      forall l | l in layers.items.Values :: l.Valid()
    }

    constructor (name: string, chunkWidth: int, chunkHeight: int)
      requires chunkWidth > 0 && chunkHeight > 0
      ensures this.name == name && this.chunkWidth == chunkWidth && this.chunkHeight == chunkHeight
      ensures layers == Empty() && deltaLayers == [] && entities == Empty() && deltaEntities == []
      ensures Valid() && LayersValid()
    {
      this.name := name;
      this.chunkWidth := chunkWidth;
      this.chunkHeight := chunkHeight;
      layers := Empty();
      deltaLayers := [];
      entities := Empty();
      deltaEntities := [];
    }

    // --- layers ---

    /** `add_layer`: store under the layer's z-level, replacing any layer there. */
    method AddLayer(l: Layer)
      requires Valid()
      modifies `layers
      ensures Valid()
      ensures layers == Put(old(layers), l.zlevel, l)
      ensures GetLayer(l.zlevel) == Some(l)
      ensures forall z | z != l.zlevel :: GetLayer(z) == Get(old(layers), z)
    {
      layers := Put(layers, l.zlevel, l);
    }

    /** `remove_layer` only queues the layer. */
    method RemoveLayer(l: Layer)
      modifies `deltaLayers
      ensures deltaLayers == old(deltaLayers) + [l]
    {
      deltaLayers := deltaLayers + [l];
    }

    /** `get_layer(z)`: `self._layers.get(z)`. */
    function GetLayer(z: int): (r: Option<Layer>)
      requires Valid()
      reads this
      ensures r.Some? ==> r.value.zlevel == z && r.value in layers.items.Values
      ensures r.None? <==> z !in layers.items
    {
      Get(layers, z)
    }

    // --- chunks ---

    /** `add_chunk(chunk, zlayer)`: create `Layer(zlayer)` when there is none,
        then add the chunk to that layer. */
    method AddChunk(c: Chunk, z: int)
      requires Valid()
      modifies `layers, (if z in layers.items then {layers.items[z]} else {})`chunks, c`layer
      ensures Valid()
      ensures z in old(layers.items) ==> layers == old(layers)
      ensures z !in old(layers.items) ==> layers.keys == old(layers.keys) + [z] && fresh(layers.items[z])
      ensures z in layers.items && layers.items[z].zlevel == z
      ensures forall y | y != z :: Get(layers, y) == Get(old(layers), y)
      ensures z in old(layers.items) ==> layers.items[z].chunks == Put(old(layers.items[z].chunks), ObjectKey(c), c)
      ensures z !in old(layers.items) ==> layers.items[z].chunks == Put(Empty(), ObjectKey(c), c) && layers.items[z].deltaChunks == []
      ensures c.layer == layers.items[z]
    {
      if z !in layers.items {
        var l := new Layer(z);
        layers := Put(layers, z, l);
      }
      layers.items[z].AddChunk(c);
    }

    /** `remove_chunk(chunk, zlayer)`: nothing when there is no such layer,
        otherwise queue the chunk on that layer. */
    method RemoveChunk(c: Chunk, z: int)
      modifies (if z in layers.items then {layers.items[z]} else {})`deltaChunks
      ensures z in layers.items ==> layers.items[z].deltaChunks == old(layers.items[z].deltaChunks) + [c]
      ensures z in layers.items ==> layers.items[z].chunks == old(layers.items[z].chunks)
    {
      if z in layers.items {
        layers.items[z].RemoveChunk(c);
      }
    }

    /** `get_chunk(position, zlayer)`: None when there is no such layer. */
    function GetChunk(pos: ChunkPos, z: int): (r: Option<Chunk>)
      reads this, layers.items.Values
      ensures z !in layers.items ==> r == None
      ensures r.Some? ==> r.value in layers.items[z].chunks.items.Values
    {
      if z !in layers.items then None else layers.items[z].GetChunk(pos)
    }

    // --- entities ---

    /** `add_entity`: store under the entity's identity, link it to the world,
        then call its `__post_init__`, which plain entities do not define. */
    method AddEntity(e: Entity) returns (r: Outcome)
      requires Valid()
      modifies `entities, e`world
      ensures Valid()
      ensures entities == Put(old(entities), e, e)
      ensures GetEntity(e) == Some(e)
      ensures forall k | k != e :: GetEntity(k) == Get(old(entities), k)
      ensures e.world == this
      ensures r.Pass? <==> e.hasPostInitHook
      ensures r.Fail? ==> r.error == AttributeError
    {
      entities := Put(entities, e, e);
      e.world := this;
      if !e.hasPostInitHook {
        return Fail(AttributeError);
      }
      r := Pass;
    }

    /** `remove_entity` only queues the entity. */
    method RemoveEntity(e: Entity)
      modifies `deltaEntities
      ensures deltaEntities == old(deltaEntities) + [e]
    {
      deltaEntities := deltaEntities + [e];
    }

    /** `get_entity(key)`: `self._entities.get(key)`. */
    function GetEntity(key: Entity): (r: Option<Entity>)
      requires Valid()
      reads this
      ensures r.Some? ==> r.value == key
      ensures r.None? <==> key !in entities.items
    {
      Get(entities, key)
    }

    // --- update ---

    /** `update`, less the camera refresh: every layer updates in dict order,
        then the layer queue is drained through `add_layer`, then the entity
        queue through `add_entity`, which stops at the first entity without
        `__post_init__` before the queue is cleared. */
    method Update() returns (r: Outcome)
      requires Valid() && LayersValid()
      modifies `layers, `deltaLayers, `entities, `deltaEntities, deltaEntities[..Drained(deltaEntities)]`world
      modifies layers.items.Values`chunks, layers.items.Values`deltaChunks
      modifies StoredChunks()`entities, StoredChunks()`deltaEntities, QueuedChunks()`layer
      ensures Valid()
      ensures LayersDrained(old(layers.items.Values), old(StoredChunks()))
      ensures LayersLinked(old(Values(layers)), old(QueuedChunks()))
      ensures layers == PutEach(old(layers), old(deltaLayers), ZOf) && deltaLayers == []
      ensures r.Pass? <==> FirstWithoutHook(old(deltaEntities)) == |old(deltaEntities)|
      ensures r.Fail? ==> r.error == AttributeError
      ensures entities == PutEach(old(entities), old(deltaEntities)[..Drained(old(deltaEntities))], Self)
      ensures forall j | 0 <= j < Drained(old(deltaEntities)) :: old(deltaEntities)[j].world == this
      ensures deltaEntities == if r.Pass? then [] else old(deltaEntities)
    {
      ghost var ls, cs, qs := layers.items.Values, StoredChunks(), QueuedChunks();
      UpdateLayers();
      r := FlushQueues(ls, cs, qs);
    }

    /** The second half of `update`: the layer queue, then the entity queue. */
    method FlushQueues(ghost ls: set<Layer>, ghost cs: set<Chunk>, ghost qs: set<Chunk>) returns (r: Outcome)
      requires Valid()
      modifies `layers, `deltaLayers, `entities, `deltaEntities, deltaEntities[..Drained(deltaEntities)]`world
      ensures unchanged(ls`chunks, ls`deltaChunks, cs`entities, cs`deltaEntities, qs`layer)
      ensures Valid()
      ensures layers == PutEach(old(layers), old(deltaLayers), ZOf) && deltaLayers == []
      ensures r.Pass? <==> FirstWithoutHook(old(deltaEntities)) == |old(deltaEntities)|
      ensures r.Fail? ==> r.error == AttributeError
      ensures entities == PutEach(old(entities), old(deltaEntities)[..Drained(old(deltaEntities))], Self)
      ensures forall j | 0 <= j < Drained(old(deltaEntities)) :: old(deltaEntities)[j].world == this
      ensures deltaEntities == if r.Pass? then [] else old(deltaEntities)
    {
      FlushLayers();
      r := FlushEntities();
    }

    /** The chunks stored in some layer. */
    ghost function StoredChunks(): set<Chunk>
      reads this, layers.items.Values
    {
      set l, c | l in layers.items.Values && c in l.chunks.items.Values :: c
    }

    /** The chunks queued on some layer. */
    ghost function QueuedChunks(): set<Chunk>
      reads this, layers.items.Values
    {
      set l, c | l in layers.items.Values && c in l.deltaChunks :: c
    }

    /** Each layer's `update`, in dict order. */
    method UpdateLayers()
      requires Valid() && LayersValid()
      modifies layers.items.Values`chunks, layers.items.Values`deltaChunks
      modifies StoredChunks()`entities, StoredChunks()`deltaEntities, QueuedChunks()`layer
      ensures forall l | l in old(layers.items.Values) :: LayerFlushed(l, old(l.chunks), old(l.deltaChunks))
      ensures forall c | c in old(StoredChunks()) :: Flushed(c, old(c.entities), old(c.deltaEntities))
      ensures LayersLinked(old(Values(layers)), old(QueuedChunks()))
    {
      var vs := Values(layers);
      forall l | l in layers.items.Values ensures l in vs {
        ValuesAreStored(layers, l);
      }
      forall j | 0 <= j < |vs| ensures vs[j] in layers.items.Values && vs[j].zlevel == layers.keys[j] {
        assert layers.keys[j] in layers.items;
      }
      assert forall j, k | 0 <= j < k < |vs| :: vs[j] != vs[k] by {
        forall j, k | 0 <= j < k < |vs| ensures vs[j] != vs[k] {
          assert layers.keys[j] != layers.keys[k];
        }
      }
      ghost var cs, qs := StoredChunks(), QueuedChunks();
      assert forall j, c | 0 <= j < |vs| && c in vs[j].chunks.items.Values :: c in cs;
      assert forall j, c | 0 <= j < |vs| && c in vs[j].deltaChunks :: c in qs;
      UpdateEach(vs, cs, qs);
      forall l | l in old(layers.items.Values) ensures LayerFlushed(l, old(l.chunks), old(l.deltaChunks)) {
        var j :| 0 <= j < |vs| && vs[j] == l;
      }
      forall c | c in old(StoredChunks()) ensures Flushed(c, old(c.entities), old(c.deltaEntities)) {
        var l :| l in old(layers.items.Values) && c in old(l.chunks.items.Values);
        var j :| 0 <= j < |vs| && vs[j] == l;
      }
    }

    /** `for layer in self._delta_layers: self.add_layer(layer)`, then clear. */
    method FlushLayers()
      requires Valid()
      modifies `layers, `deltaLayers
      ensures Valid()
      ensures layers == PutEach(old(layers), old(deltaLayers), ZOf) && deltaLayers == []
    {
      var queue := deltaLayers;
      var i := 0;
      while i < |queue|
        invariant 0 <= i <= |queue|
        invariant Valid()
        invariant layers == PutEach(old(layers), queue[..i], ZOf)
      {
        PutEachStep(old(layers), queue, i, ZOf);
        AddLayer(queue[i]);
        i := i + 1;
      }
      assert queue[..|queue|] == queue;
      deltaLayers := [];
    }

    /** `for entity in self._delta_entities: self.add_entity(entity)`, then clear. */
    method FlushEntities() returns (r: Outcome)
      requires Valid()
      modifies `entities, `deltaEntities, deltaEntities[..Drained(deltaEntities)]`world
      ensures Valid()
      ensures r.Pass? <==> FirstWithoutHook(old(deltaEntities)) == |old(deltaEntities)|
      ensures r.Fail? ==> r.error == AttributeError
      ensures entities == PutEach(old(entities), old(deltaEntities)[..Drained(old(deltaEntities))], Self)
      ensures forall j | 0 <= j < Drained(old(deltaEntities)) :: old(deltaEntities)[j].world == this
      ensures deltaEntities == if r.Pass? then [] else old(deltaEntities)
    {
      r := AddEach(deltaEntities);
      if r.Pass? {
        deltaEntities := [];
      }
    }

    /** The loop of the entity drain: `add_entity` on each queued entity in
        order, stopping at the first exception. */
    method AddEach(queue: seq<Entity>) returns (r: Outcome)
      requires Valid()
      modifies `entities, queue[..Drained(queue)]`world
      ensures Valid()
      ensures r.Pass? <==> FirstWithoutHook(queue) == |queue|
      ensures r.Fail? ==> r.error == AttributeError
      ensures entities == PutEach(old(entities), queue[..Drained(queue)], Self)
      ensures forall j | 0 <= j < Drained(queue) :: queue[j].world == this
    {
      var i := 0;
      while i < |queue|
        invariant 0 <= i <= |queue| && i <= FirstWithoutHook(queue)
        invariant Valid()
        invariant entities == PutEach(old(entities), queue[..i], Self)
        invariant forall j | 0 <= j < i :: queue[j].world == this
      {
        r := AddQueued(old(entities), queue, i);
        if r.Fail? {
          return;
        }
        i := i + 1;
      }
      assert queue[..|queue|] == queue;
      r := Pass;
    }

    /** One round of the drain loop: `add_entity` on the i-th queued entity,
        after the first i have been added. */
    method AddQueued(ghost d: Dict<Entity, Entity>, queue: seq<Entity>, i: nat) returns (r: Outcome)
      requires i < |queue| && Valid()
      requires entities == PutEach(d, queue[..i], Self)
      requires forall j | 0 <= j < i :: queue[j].world == this
      modifies `entities, queue[i..i + 1]`world
      ensures Valid()
      ensures entities == PutEach(d, queue[..i + 1], Self)
      ensures forall j | 0 <= j <= i :: queue[j].world == this
      ensures r.Pass? <==> queue[i].hasPostInitHook
      ensures r.Fail? ==> r.error == AttributeError
    {
      PutEachStep(d, queue, i, Self);
      r := AddEntity(queue[i]);
    }

    // --- chunk migration ---

    /** The entity changes chunk: its current position lies outside the chunk it
        was last recorded in. */
    ghost predicate Moves(e: Entity)
      reads this, e
    {
      chunkWidth > 0 && chunkHeight > 0 && ChunkOf(e.position.x, e.position.y, chunkWidth, chunkHeight) != e.prevChunkPos
    }

    /** The chunks stored in layer z. */
    function ChunksAt(z: int): set<Chunk>
      reads `layers, layers.items.Values`chunks
    {
      if z in layers.items then layers.items[z].chunks.items.Values else {}
    }

    /** No chunk of layer z can be found by position. */
    predicate NoneFound(z: int)
      reads this, layers.items.Values
    {
      z !in layers.items || layers.items[z].KeyedByObject()
    }

    /** The body of the migration loop for one entity. */
    method MigrateEntity(e: Entity, z: int) returns (r: Outcome)
      requires Valid()
      modifies e`chunkPos, e`prevChunkPos, ChunksAt(z)`entities, ChunksAt(z)`deltaEntities
      ensures r.Fail? ==> r.error == AttributeError
      ensures r.Pass? ==> e.chunkPos == e.prevChunkPos == ChunkOf(e.position.x, e.position.y, chunkWidth, chunkHeight)
      ensures !old(Moves(e)) ==> r == Pass && e.prevChunkPos == old(e.prevChunkPos)
      ensures NoneFound(z) && old(Moves(e)) ==> r == Fail(AttributeError)
      ensures (!old(Moves(e)) || NoneFound(z)) ==> unchanged(ChunksAt(z)`entities, ChunksAt(z)`deltaEntities)
      ensures r.Fail? ==> e.prevChunkPos == old(e.prevChunkPos) && unchanged(ChunksAt(z)`entities)
      ensures r.Pass? && old(Moves(e)) ==>
                && GetChunk(old(e.prevChunkPos), z).Some? && GetChunk(e.chunkPos, z).Some?
                && Relocated(e, GetChunk(old(e.prevChunkPos), z).value, GetChunk(e.chunkPos, z).value, ChunksAt(z))
    {
      var target := ChunkOf(e.position.x, e.position.y, chunkWidth, chunkHeight);
      if target != e.prevChunkPos {
        r := Relocate(e, target, z);
      } else {
        e.chunkPos := target;
        r := Pass;
      }
    }

    /** An entity whose position lies in chunk target, not in the chunk it has
        recorded: set its chunk to target, queue it for removal from the
        recorded chunk, add it to target, record target. Either lookup finding
        no chunk makes the call on `None` fail. */
    method Relocate(e: Entity, target: ChunkPos, z: int) returns (r: Outcome)
      requires Valid()
      modifies e`chunkPos, e`prevChunkPos, ChunksAt(z)`entities, ChunksAt(z)`deltaEntities
      ensures e.chunkPos == target
      ensures r.Fail? ==> r == Fail(AttributeError) && e.prevChunkPos == old(e.prevChunkPos) && unchanged(ChunksAt(z)`entities)
      ensures NoneFound(z) ==> r.Fail? && unchanged(ChunksAt(z)`entities, ChunksAt(z)`deltaEntities)
      ensures r.Pass? ==>
                && e.prevChunkPos == e.chunkPos
                && GetChunk(old(e.prevChunkPos), z).Some? && GetChunk(e.chunkPos, z).Some?
                && Relocated(e, GetChunk(old(e.prevChunkPos), z).value, GetChunk(e.chunkPos, z).value, ChunksAt(z))
    {
      e.chunkPos := target;
      var from := GetChunk(e.prevChunkPos, z);
      if z in layers.items && layers.items[z].KeyedByObject() {
        GetChunkNeverFindsAdded(layers.items[z], e.prevChunkPos);
      }
      if from.None? {
        return Fail(AttributeError);
      }
      from.value.RemoveEntity(e);
      var to := GetChunk(e.chunkPos, z);
      if to.None? {
        return Fail(AttributeError);
      }
      to.value.AddEntity(e);
      e.prevChunkPos := e.chunkPos;
      r := Pass;
    }

    /** `self._entities.values()`: the entities in dict order. */
    function EntityOrder(): seq<Entity>
      requires Valid()
      reads this
    {
      Values(entities)
    }

    /** `_entity_chunk_change_task`, with the layer the entities live in passed
        explicitly (the engine calls `get_chunk` without one). Each entity's
        chunk is recomputed from its position; an entity that changed chunk is
        queued for removal from its old chunk, added to its new one, and its
        previous chunk updated. A lookup that finds no chunk makes the call on
        `None` fail, and chunks added through `add_chunk` are never found. */
    method EntityChunkChangeTask(z: int) returns (r: Outcome)
      requires Valid()
      modifies EntityOrder()`chunkPos, EntityOrder()`prevChunkPos, ChunksAt(z)`entities, ChunksAt(z)`deltaEntities
      ensures r.Fail? ==> r.error == AttributeError
      ensures r.Pass? ==> forall j | 0 <= j < |EntityOrder()| :: Settled(EntityOrder()[j])
      ensures forall j | 0 <= j < |EntityOrder()| && !old(Moves(EntityOrder()[j])) ::
                EntityOrder()[j].prevChunkPos == old(EntityOrder()[j].prevChunkPos)
      ensures NoneFound(z) && (exists j | 0 <= j < |EntityOrder()| :: old(Moves(EntityOrder()[j]))) ==> r == Fail(AttributeError)
      ensures (forall j | 0 <= j < |EntityOrder()| :: !old(Moves(EntityOrder()[j]))) ==> r == Pass
      ensures (NoneFound(z) || forall j | 0 <= j < |EntityOrder()| :: !old(Moves(EntityOrder()[j]))) ==>
                unchanged(ChunksAt(z)`entities, ChunksAt(z)`deltaEntities)
    {
      var vs := Values(entities);
      assert forall j, k | 0 <= j < k < |vs| :: vs[j] != vs[k] by {
        forall j, k | 0 <= j < k < |vs| ensures vs[j] != vs[k] {
          assert entities.keys[j] in entities.items && entities.keys[k] in entities.items;
          assert entities.keys[j] != entities.keys[k];
        }
      }
      r := MigrateEach(vs, z);
    }

    /** The migration loop over the entities vs, distinct objects. */
    method MigrateEach(vs: seq<Entity>, z: int) returns (r: Outcome)
      requires Valid()
      requires forall j, k | 0 <= j < k < |vs| :: vs[j] != vs[k]
      modifies vs`chunkPos, vs`prevChunkPos, ChunksAt(z)`entities, ChunksAt(z)`deltaEntities
      ensures r.Fail? ==> r.error == AttributeError
      ensures r.Pass? ==> forall j | 0 <= j < |vs| :: Settled(vs[j])
      ensures forall j | 0 <= j < |vs| && !old(Moves(vs[j])) :: vs[j].prevChunkPos == old(vs[j].prevChunkPos)
      ensures NoneFound(z) && (exists j | 0 <= j < |vs| :: old(Moves(vs[j]))) ==> r == Fail(AttributeError)
      ensures (forall j | 0 <= j < |vs| :: !old(Moves(vs[j]))) ==> r == Pass
      ensures (NoneFound(z) || forall j | 0 <= j < |vs| :: !old(Moves(vs[j]))) ==>
                unchanged(ChunksAt(z)`entities, ChunksAt(z)`deltaEntities)
    {
      ghost var prevs := PrevChunks(vs);
      ghost var es := map c | c in ChunksAt(z) :: c.entities;
      ghost var ds := map c | c in ChunksAt(z) :: c.deltaEntities;
      ghost var n;
      r, n := MigrateLoop(vs, prevs, es, ds, z);
    }

    /** The migration loop proper, against the chunks prevs the entities of vs
        have recorded and the entity dicts es and queues ds of the chunks of
        layer z when it begins. It stops after n entities, at the first
        failing one. */
    method MigrateLoop(vs: seq<Entity>, ghost prevs: seq<ChunkPos>, ghost es: map<Chunk, Dict<Entity, Entity>>, ghost ds: map<Chunk, seq<Entity>>, z: int)
        returns (r: Outcome, ghost n: nat)
      requires Valid()
      requires forall j, k | 0 <= j < k < |vs| :: vs[j] != vs[k]
      requires |prevs| == |vs| && forall j | 0 <= j < |vs| :: vs[j].prevChunkPos == prevs[j]
      requires ChunksKept(z, es, ds)
      modifies vs`chunkPos, vs`prevChunkPos, ChunksAt(z)`entities, ChunksAt(z)`deltaEntities
      ensures n <= |vs| && MigratedUpTo(vs, prevs, n, z)
      ensures r.Pass? ==> r == Pass && n == |vs| && (StayedUpTo(vs, prevs, n) ==> ChunksKept(z, es, ds))
      ensures r.Fail? ==> r == Fail(AttributeError) && n < |vs| && ChunkOf(vs[n].position.x, vs[n].position.y, chunkWidth, chunkHeight) != prevs[n]
      ensures r.Fail? && NoneFound(z) ==> ChunksKept(z, es, ds)
      ensures forall j | 0 <= j < |vs| :: old(Moves(vs[j])) <==> ChunkOf(vs[j].position.x, vs[j].position.y, chunkWidth, chunkHeight) != prevs[j]
      ensures StayedUpTo(vs, prevs, |vs|) <==> forall j | 0 <= j < |vs| :: !old(Moves(vs[j]))
    {
      assert forall j | 0 <= j < |vs| :: Moves(vs[j]) <==> ChunkOf(vs[j].position.x, vs[j].position.y, chunkWidth, chunkHeight) != prevs[j];
      var i := 0;
      while i < |vs|
        invariant 0 <= i <= |vs|
        invariant MigratedUpTo(vs, prevs, i, z)
        invariant StayedUpTo(vs, prevs, i) ==> ChunksKept(z, es, ds)
      {
        r := MigrateAt(vs, prevs, es, ds, i, z);
        if r.Fail? {
          n := i;
          return;
        }
        i := i + 1;
      }
      r, n := Pass, i;
    }

    /** The entity sits in the chunk its position lies in, and has recorded it. */
    ghost predicate Settled(e: Entity)
      reads this, e
    {
      chunkWidth > 0 && chunkHeight > 0
      && e.chunkPos == e.prevChunkPos == ChunkOf(e.position.x, e.position.y, chunkWidth, chunkHeight)
    }

    /** The migration loop's state after the first i entities of vs, whose
        recorded chunks were prevs when the loop began: those i are settled,
        the rest have their recorded chunk still, and when no chunk of layer z
        can be found none of the first i had changed chunk. */
    ghost predicate MigratedUpTo(vs: seq<Entity>, prevs: seq<ChunkPos>, i: nat, z: int)
      reads this, layers.items.Values, set e | e in vs
    {
      && i <= |vs| == |prevs| && chunkWidth > 0 && chunkHeight > 0
      && (forall j | 0 <= j < i :: Settled(vs[j]))
      && (forall j | 0 <= j < i && ChunkOf(vs[j].position.x, vs[j].position.y, chunkWidth, chunkHeight) == prevs[j] :: vs[j].prevChunkPos == prevs[j])
      && (forall j | i <= j < |vs| :: vs[j].prevChunkPos == prevs[j])
      && (NoneFound(z) ==> forall j | 0 <= j < i :: ChunkOf(vs[j].position.x, vs[j].position.y, chunkWidth, chunkHeight) == prevs[j])
    }

    /** None of the first i entities of vs has left the chunk prevs records. */
    ghost predicate StayedUpTo(vs: seq<Entity>, prevs: seq<ChunkPos>, i: nat)
      reads this, vs`position
    {
      && chunkWidth > 0 && chunkHeight > 0 && i <= |vs| == |prevs|
      && forall j | 0 <= j < i :: ChunkOf(vs[j].position.x, vs[j].position.y, chunkWidth, chunkHeight) == prevs[j]
    }

    /** The chunks of layer z still have the entity dicts es and queues ds. */
    ghost predicate ChunksKept(z: int, es: map<Chunk, Dict<Entity, Entity>>, ds: map<Chunk, seq<Entity>>)
      reads this, layers.items.Values, ChunksAt(z)
    {
      forall c | c in ChunksAt(z) :: c in es && c in ds && c.entities == es[c] && c.deltaEntities == ds[c]
    }

    /** One round of the migration loop, on the i-th entity of vs. */
    method MigrateAt(vs: seq<Entity>, ghost prevs: seq<ChunkPos>, ghost es: map<Chunk, Dict<Entity, Entity>>, ghost ds: map<Chunk, seq<Entity>>,
                     i: nat, z: int) returns (r: Outcome)
      requires Valid() && i < |vs|
      requires forall j | 0 <= j < |vs| && j != i :: vs[j] != vs[i]
      requires MigratedUpTo(vs, prevs, i, z)
      requires StayedUpTo(vs, prevs, i) ==> ChunksKept(z, es, ds)
      modifies vs[i..i + 1]`chunkPos, vs[i..i + 1]`prevChunkPos, ChunksAt(z)`entities, ChunksAt(z)`deltaEntities
      ensures r.Fail? ==> r.error == AttributeError
      ensures r.Pass? ==> MigratedUpTo(vs, prevs, i + 1, z)
      ensures r.Pass? ==> (StayedUpTo(vs, prevs, i + 1) ==> ChunksKept(z, es, ds))
      ensures r.Fail? && NoneFound(z) ==> ChunksKept(z, es, ds)
      ensures r.Fail? ==> MigratedUpTo(vs, prevs, i, z)
      ensures ChunkOf(vs[i].position.x, vs[i].position.y, chunkWidth, chunkHeight) == prevs[i] ==> r.Pass?
    {
      r := MigrateEntity(vs[i], z);
    }
  }

  /** The chunk each entity of vs has recorded. */
  ghost function PrevChunks(vs: seq<Entity>): (r: seq<ChunkPos>)
    reads set e | e in vs
    ensures |r| == |vs|
    ensures forall j | 0 <= j < |vs| :: r[j] == vs[j].prevChunkPos
  {
    if vs == [] then [] else [vs[0].prevChunkPos] + PrevChunks(vs[1..])
  }
}
